=== FILE: README.md ===
# LinkedIn profile reviewer: the decision and string logic, in Dafny

The reviewer is a small Flask service. It extracts the text of a LinkedIn
profile exported as PDF, guesses the connection and follower counts from that
text, builds a coaching prompt for a language model, and returns the model's
JSON review with the counts filled in where the model left them out. A
companion module renders a score certificate. This project models the pure
logic between those I/O layers:

- `ProfileStats` (profile_stats.dfy) covers `parse_profile_stats`. The
  pattern `(\d[\d,]*\+?).{0,8}connections?`, case-insensitive with `.`
  matching newlines, is stated as a predicate over the text (`RegexMatch`).
  `re.search` is modelled by the choice it makes among the matches: the least
  start and, at that start, the longest group 1 (`LeftmostLongest`). The
  group is read back as the source does: commas removed, one trailing `+`
  removed, then `int`, which raises on more than 4300 digits.
- `Prompt` (prompt.dfy) covers `build_prompt`: the fixed opening, the profile
  text between two dashed lines, the optional role line, the stats part with
  its `or 'unknown'` fallback, and the JSON schema instructions.
- `Review` (review.dfy) covers the backfill of `connections` and `followers`
  into the model's decoded JSON answer.
- `Ranking` (rank.dfy) covers `compute_rank_percentile`.
- `Certificate` (certificate.dfy) and `Wrap` (wrap.dfy) cover the strings of certificate.py:
  - the score sentence;
  - the QR payload, with a decoder for the verification summary;
  - the badge label and the rank caption;
  - the greedy 85-character word wrap, written as a loop with its invariant.
- `Options`, `Decimal` and `Words` are shared helpers:
  - Python's None;
  - `str(int)` and `int(str)` for decimal text;
  - `str.split()`, `str.split(c)` and `" ".join`.

## Model

| member | source | states |
|---|---|---|
| ProfileStats.ParseCount | app.py:63-75 | Text where the pattern matches nowhere gives None. The count is None exactly when the match `re.search` reports (the leftmost match with the longest group 1) is missing or its group 1 has more than 4300 digits, so that `int` raises. Otherwise it is the number that group denotes. |
| ProfileStats.RemoveAll | app.py:70 | `.replace(",", "")`: the result holds only characters of the input and no comma, and text without a comma is returned unchanged. |
| ProfileStats.RemoveAllAppend | app.py:70 | Removing a character distributes over concatenation, so each piece of the text loses exactly its own commas and keeps its order. |
| ProfileStats.ParseProfileStats | app.py:55-91 | Each of the two counts is searched for on its own. Each is None exactly when its keyword's reported match is missing or too long for `int`. Otherwise it is the number denoted by that match's group 1, read as CountOf. |
| ProfileStats.ReadCount | app.py:70-75 | A group is read only when, without its commas, it holds 1 to 4301 characters (the digits plus at most one `+`). |
| ProfileStats.Search | app.py:64-68 | `re.search` finds no span exactly when no match exists. A span it finds is the leftmost match with the longest group 1. |
| ProfileStats.MatchEndAt | app.py:65 | At one start index: the group end reported is a match, and no longer match exists there. None means the pattern cannot match at that index. |
| ProfileStats.LeftmostLongestUnique | app.py:64-68 | There is at most one leftmost-longest match, so the search result is determined by the text. |
| ProfileStats.GroupReads | app.py:70-75 | For every possible group 1: removing commas, then one trailing `+`, then `int` reads the group as its digits in decimal when there are at most 4300 of them. Otherwise `int` raises and the `except` branch gives None. No other group reaches the `except` branch. |
| ProfileStats.TooLongIsNone | app.py:69-75 | A count of more than 4300 digits before "connections" gives None. |
| ProfileStats.CountRoundTrip | app.py:63-75 | A natural number printed in decimal with at most 4300 digits is read back exactly; a longer one gives None. This holds for any digit-free text before it, a gap of up to 8 characters that does not extend the number, and the keyword in any case. |
| ProfileStats.CountFound | app.py:69-75 | A comma-grouped number, possibly followed by `+`, in front of the keyword gives CountOf of that number, or None when it has more than 4300 digits. CountOf is its digits without commas. |
| ProfileStats.NoKeywordNoCount | app.py:60-75 | Text with no character that can start the keyword yields None. |
| ProfileStats.NoDigitNoCount | app.py:60-75 | Text without a digit yields None. |
| ProfileStats.EmptyTextExample | app.py:91 | Empty text gives neither count: both fields are None. |
| ProfileStats.PlusSuffixExample | app.py:69-73 | "500+ connections" gives 500 connections and no followers. |
| ProfileStats.GroupingCommaExample | app.py:83-87 | "1,234 followers" gives 1234 followers and no connections. |
| ProfileStats.LeftmostExample | app.py:64-68 | "1 2 connections" gives 1: the leftmost number wins, even though another is closer to the keyword. |
| ProfileStats.NewlineCaseExample | app.py:67 | "500\nCONNECTIONS" gives 500: the gap may hold a newline, and case is ignored. |
| Prompt.CountText | app.py:105-106 | A count prints as "unknown" exactly when it is None or 0. Any other count prints as text that reads back as the count. |
| Prompt.RolePart | app.py:100 | The role part is empty exactly when the role is None or "". Otherwise it is the label line followed by the role. |
| Prompt.StatsPart | app.py:102-109 | The stats part always starts with a newline. It is the "were not available" line exactly when the stats are None or empty. Otherwise it is the heading and the two count lines. |
| Prompt.BuildPrompt | app.py:95-146 | Every prompt opens with the coaching instruction, the profile heading and the first dashed line. The profile text follows verbatim, then a newline and the second dashed line on its own line, then the role part. The stats part follows between two newlines, and the JSON schema instructions end the prompt. Nothing else is in it. |
| Prompt.PromptRoleShown | app.py:100-119 | After the second dashed line comes an empty line. The line after that is the role line exactly when a non-empty role is given. |
| Prompt.PromptRoleLine | app.py:100-119 | A given role is printed after its label at that place. |
| Prompt.PromptStats | app.py:102-120 | The stats part follows the role part after one newline. One newline and the schema follow it, and nothing else. Both newlines are stated at their indices. |
| Prompt.StatsArgOf | app.py:91 | The dict `parse_profile_stats` returns always has exactly the keys "connections" and "followers", each holding the parsed count or None. |
| Prompt.ReviewStatsShown | app.py:187-188 | In the review flow the parsed dict always has both keys, so the stats heading and both count lines are always printed. |
| Prompt.CountTextOfNat | app.py:105-106 | A positive parsed count prints as its decimal digits. A missing or zero count prints as "unknown". |
| Review.FillKey | app.py:266-269 | One step: a key that is missing or null gets the parsed value. A non-null value is kept, and every other key is unchanged. |
| Review.Backfill | app.py:264-269 | A non-object answer is returned unchanged. For an object, both count keys are present afterwards, each holds the model's non-null value or else the parsed count, and every other key is unchanged. |
| Review.BackfillFields | app.py:265-269 | After the backfill, a count is null exactly when the model gave none (or null) and the parser found none. |
| Review.BackfillIdempotent | app.py:264-269 | Backfilling twice with the same counts gives the same answer as backfilling once. |
| Review.BackfillKeepsModelCounts | app.py:266-269 | An answer that already holds non-null counts comes back unchanged: parsed counts never override the model. |
| Review.BackfillExample | app.py:264-269 | `{"score":70,"connections":null}` with parsed counts 42 and None gives connections 42 and followers null. |
| Ranking.RankPercentile | certificate.py:12-25 | Every score maps to one of the six ranks. Each percentile is given exactly on its band: 99 for 95 and up, 95 for 90-94, 88 for 80-89, 74 for 70-79, 63 for 60-69, 35 below 60. |
| Ranking.RankMatchesTable | certificate.py:14-25 | The if/elif chain agrees with a table reading: the rank's index is the number of thresholds 95, 90, 80, 70, 60 that lie above the score. |
| Ranking.RanksDistinct | certificate.py:14-25 | The six ranks differ in both name and percentile, so either one identifies the rank. |
| Ranking.PercentileMonotone | certificate.py:14-25 | A higher score never gets a lower percentile. |
| Ranking.RankExample | certificate.py:19 | Score 87 is "A (Excellent)", top 88%. |
| Certificate.Sentence | certificate.py:89-91 | The score follows the fixed opening directly and reads back as the score. The date, the rank name and the percentile followed by `%` all occur in the sentence. |
| Certificate.QrPayload | certificate.py:93-96 | A non-empty URL is the payload as it is. Otherwise the payload is the verification summary of the name, the score, the rank of line 87 and the date, whatever characters they hold; it starts with "cert" and the separator. |
| Certificate.SummaryText | certificate.py:96 | The summary starts with "cert" and the bar, and is the bar-join of the five fields: "cert" and the labelled name, score, rank and date. |
| Certificate.DecodeSummary | certificate.py:96 | A payload that decodes is exactly the summary of what it decodes to, and the decoded name, rank and date contain no bar character. |
| Certificate.SummaryRoundTrip | certificate.py:96 | A summary whose name, rank and date contain no bar character decodes back to itself. |
| Certificate.QrRoundTrip | certificate.py:87-96 | Without a URL, the QR payload decodes to the name, the score, the rank of line 87 and the date, provided the name and the date contain no bar character. |
| Certificate.NoBarInRank | certificate.py:14-25 | No rank name contains the bar separator. |
| Certificate.BadgeLabel | certificate.py:131 | The badge is exactly the score printed by `str` followed by " / 100", and what precedes " / 100" reads back as the score. |
| Certificate.BadgeExample | certificate.py:131 | Score 87 gives "87 / 100". |
| Certificate.RankCaption | certificate.py:138 | The caption starts with "Rank: ", directly followed by the rank name. The percentile followed by "% profiles" occurs in it. |
| Certificate.SentenceLines | certificate.py:151-164 | The printed lines, joined and split again, are the sentence's words in order. Each line fits in 85 characters or is a single word of the sentence. |
| Wrap.WrapWords | certificate.py:151-164 | No words give no lines. The non-empty lines joined by spaces are the words joined by spaces. Only the first line can be empty, and it is exactly when the first word is longer than 84 characters. A line longer than 85 is a single word, and a line with a space fits. Each line was flushed only because the next word, after a space, would not fit. |
| Wrap.Step | certificate.py:155-162 | One pass of the loop body. When the word fits after a space, a non-empty current line gets a space and the word appended, and an empty one becomes the word; nothing is emitted. Otherwise the old current line is emitted and the word starts the new one. The new line fits in 85 characters unless it is that word alone. |
| Wrap.StepKeepsInv | certificate.py:154-162 | One pass of the loop body keeps the wrap invariant: coverage, the bound, the empty-first-line rule and greediness. |
| Words.SplitWords | certificate.py:151 | `str.split()` gives a list of non-empty words without whitespace, and gives no words exactly when the text is all whitespace. SplitAtSpace and SplitOneWord are its partners. |
| Words.SplitJoinWords | certificate.py:151 | `str.split()` of words joined by single spaces gives the words back. |
| Words.SplitAtSpace | certificate.py:151 | Any whitespace character splits: the words of a text with one in the middle are the words before it followed by the words after it. With the all-whitespace case and SplitOneWord this fixes `str.split()` on every text. |
| Words.SplitOneWord | certificate.py:151 | A single word without whitespace splits into itself. |
| Decimal.IntToString | certificate.py:96 | `str(i)` is non-empty and starts with `-` exactly for a negative number. After the sign it is all digits, without leading zero, and denotes the magnitude. |
| Decimal.IntRoundTrip | certificate.py:131 | `str(score)` reads back as the score, sign included. |
| Decimal.IntToStringInjective | certificate.py:96 | Distinct scores print differently. |
| Decimal.NatToString | app.py:105-106 | The decimal text of a count is all digits, without leading zero, and denotes the count. |

## Left out

- PDF text extraction, the Flask routes, the API key check, the HTTP call to the model service and its error responses (app.py:40-52, 150-262) are I/O. Their results enter as parameters: the extracted text, the role and the decoded JSON answer.
- The role's `.strip() or None` in the route (app.py:163) is not modelled. `build_prompt` is modelled for every role, "" included.
- `json.loads` is not modelled. The answer is a `Json` value whose numbers are integers, so answers holding floats are not represented.
- `\d` is modelled as the ASCII digits only; Python also accepts other Unicode decimal digits in a str pattern, and `int` reads them.
- ProfileStats.Fold: `re.IGNORECASE` is modelled for ASCII letters plus four non-ASCII letters that Python's matcher folds onto ASCII letters (dotted I, dotless i, long s, Kelvin sign). No other Unicode case folding is modelled.
- ProfileStats.MaxStrDigits: the limit of 4300 digits for `int` is CPython's default from 3.10.7 and 3.11 on. Releases without the limit, and a limit changed through `PYTHONINTMAXSTRDIGITS` or `sys.set_int_max_str_digits`, are not modelled. The `except` branches of app.py:74-75 and 88-89 are modelled for that one error, the only one a group of the pattern can raise.
- QR encoding, image resizing, the ReportLab drawing and its geometry (certificate.py:28-62, 98-195) are rendering through foreign libraries. The model stops at the strings they print or encode.
- The default date `datetime.now()` (certificate.py:84-85) reads the clock, so the date is an input string.
- Certificate.Sentence: the contract states where the score sits and that the date, rank and percentile occur. It does not state their exact positions or the fixed wording between them.
- Certificate.RankCaption: the percentile is stated to occur in the caption followed by "% profiles", not at its exact index.
- The code has no check that the uploaded PDF looks like a LinkedIn profile before the model call, so none is modelled.
- The code puts no placeholder in place of a blank certificate name: the name is printed as given.
- The prompt built by `build_prompt` carries no scoring rubric, only the JSON schema instructions.


=== FILE: certificate.dfy ===
/** The strings `generate_certificate_pdf` of certificate.py prints and
    encodes: the score sentence, the QR payload, the badge label and the
    rank caption, and the wrapped lines of the sentence. The date is an
    input string. */
module Certificate {
  import opened Options
  import opened Decimal
  import opened Words
  import opened Ranking
  import opened Wrap

  /** The sentence's fixed text around its four slots (score, date, rank,
      percentile). */
  const Opening: string := "has achieved a LinkedIn Profile Performance Score of "

  const UsingOn: string := " using our AI-powered LinkedIn Profile Reviewer on "

  const Evaluated: string :=
    ". Based on the evaluated parameters of content clarity, "
    + "headline structure, achievement representation, "
    + "and relevant industry keywords, "
    + "the candidate secures an estimated "

  const Placing: string := " standing, placing them in the top "

  const Ending: string :=
    "%" + " of professional LinkedIn profiles in our evaluation. "
    + "This certificate reflects an analytical review of the provided information "
    + "and serves as a benchmark report for future optimization "
    + "and professional positioning."

  /** Line 90: the sentence printed under the name. The score follows the
      fixed opening directly and reads back as the score; the date, the rank
      name and the percentile followed by `%` all appear in it. */
  function Sentence(score: int, date: string): (s: string)
    ensures OccursAt(s, IntToString(score), |Opening|)
    ensures ParseInt(s[|Opening|..|Opening| + |IntToString(score)|]) == Some(score)
    ensures Contains(s, date)
    ensures Contains(s, RankPercentile(score).name)
    ensures Contains(s, NatToString(RankPercentile(score).percentile) + "%")
  {
    var rank := RankPercentile(score);
    var sc := IntToString(score);
    var pct := NatToString(rank.percentile);
    var s := Opening + sc + UsingOn + date + Evaluated + rank.name + Placing + pct + Ending;
    assert Ending[0] == '%';
    Slots(Opening, sc, UsingOn, date, Evaluated, rank.name, Placing, pct, Ending);
    IntRoundTrip(score);
    s
  }

  /** Where the four slots of a nine-part concatenation sit. */
  lemma Slots(p0: string, a: string, p1: string, b: string, p2: string, c: string, p3: string, d: string, p4: string)
    requires |p4| > 0 && p4[0] == '%'
    ensures var s := p0 + a + p1 + b + p2 + c + p3 + d + p4;
      && OccursAt(s, a, |p0|)
      && Contains(s, b)
      && Contains(s, c)
      && Contains(s, d + "%")
  {
    SlotFirst(p0, a, p1 + b + p2 + c + p3 + d + p4);
    var s := p0 + a + p1 + b + p2 + c + p3 + d + p4;
    SlotMiddle(p0 + a + p1, b, p2 + c + p3 + d + p4);
    assert s == (p0 + a + p1) + b + (p2 + c + p3 + d + p4);
    SlotMiddle(p0 + a + p1 + b + p2, c, p3 + d + p4);
    assert s == (p0 + a + p1 + b + p2) + c + (p3 + d + p4);
    SlotLast(p0 + a + p1 + b + p2 + c + p3, d, p4);
  }

  lemma SlotFirst(p: string, a: string, q: string)
    ensures OccursAt(p + a + q, a, |p|)
  {
  }

  lemma SlotMiddle(p: string, b: string, q: string)
    ensures Contains(p + b + q, b)
  {
    ContainsMiddle(p, b, q);
  }

  /** The part before a leading `%` is followed by it. */
  lemma SlotLast(p: string, d: string, q: string)
    requires |q| > 0 && q[0] == '%'
    ensures Contains(p + d + q, d + "%")
  {
    assert p + d + q == p + (d + "%") + q[1..];
    ContainsMiddle(p, d + "%", q[1..]);
  }

  /** `if verification_url:` — a URL that is neither None nor "". */
  predicate HasUrl(url: Option<string>) {
    url.Some? && url.value != ""
  }

  /** The fields of the verification summary. */
  datatype Summary = Summary(name: string, score: int, rank: string, date: string)

  /** `f"cert|name:{name}|score:{score}|rank:{rank}|date:{date}"`: the
      five labelled fields with `|` between them. */
  function SummaryText(q: Summary): (r: string)
    ensures |r| > 5 && r[..5] == "cert|"
    ensures r == Join(SummaryFields(q), '|')
  {
    var f := SummaryFields(q);
    JoinFive(f[0], f[1], f[2], f[3], f[4]);
    assert f == [f[0], f[1], f[2], f[3], f[4]];
    "cert" + "|" + ("name:" + q.name) + "|" + ("score:" + IntToString(q.score))
      + "|" + ("rank:" + q.rank) + "|" + ("date:" + q.date)
  }

  /** Lines 93-96: what the QR code encodes, with the rank from line 87. */
  function QrPayload(name: string, score: int, date: string, url: Option<string>): (r: string)
    ensures HasUrl(url) ==> r == url.value
    ensures !HasUrl(url) ==> r == SummaryText(Summary(name, score, RankPercentile(score).name, date))
    ensures !HasUrl(url) ==> |r| > 5 && r[..5] == "cert|"
  {
    if HasUrl(url) then url.value
    else SummaryText(Summary(name, score, RankPercentile(score).name, date))
  }

  /** `s` starts with `p`. */
  predicate HasPrefix(s: string, p: string) {
    |p| <= |s| && s[..|p|] == p
  }

  /** A string with a prefix is that prefix and the rest. */
  lemma PrefixRest(s: string, p: string)
    requires HasPrefix(s, p)
    ensures p + s[|p|..] == s
  {
    assert s == s[..|p|] + s[|p|..];
  }

  /** Reads a verification summary back: five `|`-separated fields with
      their labels and a score printed as `str(int)` prints it; anything
      else is None. The fields read back never contain the separator, and
      a payload that decodes is exactly the summary of what it decodes
      to. */
  function DecodeSummary(payload: string): (r: Option<Summary>)
    ensures r.Some? ==> '|' !in r.value.name && '|' !in r.value.rank && '|' !in r.value.date
    ensures r.Some? ==> SummaryText(r.value) == payload
  {
    var parts := SplitOn(payload, '|');
    if |parts| == 5 && parts[0] == "cert"
      && HasPrefix(parts[1], "name:") && HasPrefix(parts[2], "score:")
      && HasPrefix(parts[3], "rank:") && HasPrefix(parts[4], "date:")
      && ParseInt(parts[2][6..]).Some?
      && IntToString(ParseInt(parts[2][6..]).value) == parts[2][6..]
    then
      assert '|' !in parts[1] && '|' !in parts[3] && '|' !in parts[4];
      var q := Summary(parts[1][5..], ParseInt(parts[2][6..]).value, parts[3][5..], parts[4][5..]);
      JoinSplitRoundTrip(payload, '|');
      FieldsOfDecoded(parts, q);
      Some(q)
    else None
  }

  /** Five labelled fields are the fields of the summary they hold. */
  lemma FieldsOfDecoded(parts: seq<string>, q: Summary)
    requires |parts| == 5 && parts[0] == "cert"
    requires HasPrefix(parts[1], "name:") && HasPrefix(parts[2], "score:")
    requires HasPrefix(parts[3], "rank:") && HasPrefix(parts[4], "date:")
    requires q.name == parts[1][5..] && q.rank == parts[3][5..] && q.date == parts[4][5..]
    requires IntToString(q.score) == parts[2][6..]
    ensures SummaryFields(q) == parts
  {
    PrefixRest(parts[1], "name:");
    PrefixRest(parts[2], "score:");
    PrefixRest(parts[3], "rank:");
    PrefixRest(parts[4], "date:");
  }

  /** Five strings joined by `|`. */
  lemma JoinFive(a: string, b: string, c: string, d: string, e: string)
    ensures Join([a, b, c, d, e], '|') == a + "|" + b + "|" + c + "|" + d + "|" + e
  {
    JoinSnoc([a], b, '|');
    assert [a] + [b] == [a, b];
    JoinSnoc([a, b], c, '|');
    assert [a, b] + [c] == [a, b, c];
    JoinSnoc([a, b, c], d, '|');
    assert [a, b, c] + [d] == [a, b, c, d];
    JoinSnoc([a, b, c, d], e, '|');
    assert [a, b, c, d] + [e] == [a, b, c, d, e];
  }

  /** The five labelled fields of a summary. */
  function SummaryFields(q: Summary): (f: seq<string>)
    ensures |f| == 5
  {
    ["cert", "name:" + q.name, "score:" + IntToString(q.score), "rank:" + q.rank, "date:" + q.date]
  }

  /** A printed integer holds no `|`. */
  lemma NoBarInInt(i: int)
    ensures '|' !in IntToString(i)
  {
    var s := IntToString(i);
    if i < 0 {
      assert s == "-" + NatToString(-i);
      assert forall k :: 1 <= k < |s| ==> s[k] == NatToString(-i)[k - 1];
    }
  }

  /** No rank name holds a `|`. */
  lemma NoBarInRank(score: int)
    ensures '|' !in RankPercentile(score).name
  {
    var r := RankPercentile(score);
    if score >= 95 {
      assert r == Elite;
      NoBarInElite();
    } else if score >= 90 {
      assert r == Exceptional;
      NoBarInExceptional();
    } else if score >= 80 {
      assert r == Excellent;
      NoBarInExcellent();
    } else if score >= 70 {
      assert r == Strong;
      NoBarInStrong();
    } else if score >= 60 {
      assert r == Average;
      NoBarInAverage();
    } else {
      assert r == NeedsImprovement;
      NoBarInNeedsImprovement();
    }
  }

  /** Each rank name is free of `|`. The six names are checked in six
      lemmas so that each proof unfolds one string literal only. */
  lemma NoBarInElite()
    ensures '|' !in Elite.name
  {
  }

  lemma NoBarInExceptional()
    ensures '|' !in Exceptional.name
  {
  }

  lemma NoBarInExcellent()
    ensures '|' !in Excellent.name
  {
  }

  lemma NoBarInStrong()
    ensures '|' !in Strong.name
  {
  }

  lemma NoBarInAverage()
    ensures '|' !in Average.name
  {
  }

  lemma NoBarInNeedsImprovement()
    ensures '|' !in NeedsImprovement.name
  {
  }

  /** A summary whose name, rank and date hold no `|` reads back as
      itself. */
  lemma SummaryRoundTrip(q: Summary)
    requires '|' !in q.name && '|' !in q.rank && '|' !in q.date
    ensures DecodeSummary(SummaryText(q)) == Some(q)
  {
    var f := SummaryFields(q);
    NoBarInInt(q.score);
    assert '|' !in f[1] && '|' !in f[2] && '|' !in f[3] && '|' !in f[4];
    SplitJoinRoundTrip(f, '|');
    assert f[1][5..] == q.name && f[3][5..] == q.rank && f[4][5..] == q.date;
    assert f[2][6..] == IntToString(q.score);
    IntRoundTrip(q.score);
  }

  /** Without a URL the QR code reads back as the name, the score, the rank
      of line 87 and the date, provided the name and the date contain no
      `|`. */
  lemma QrRoundTrip(name: string, score: int, date: string, url: Option<string>)
    requires !HasUrl(url)
    requires '|' !in name && '|' !in date
    ensures DecodeSummary(QrPayload(name, score, date, url))
      == Some(Summary(name, score, RankPercentile(score).name, date))
  {
    NoBarInRank(score);
    SummaryRoundTrip(Summary(name, score, RankPercentile(score).name, date));
  }

  /** Line 131: the badge reads the score over 100. */
  function BadgeLabel(score: int): (r: string)
    ensures |r| > 6 && r[|r| - 6..] == " / 100"
    ensures ParseInt(r[..|r| - 6]) == Some(score)
    ensures |r| == |IntToString(score)| + 6 && OccursAt(r, IntToString(score), 0)
  {
    IntRoundTrip(score);
    var r := IntToString(score) + " / 100";
    assert r[..|r| - 6] == IntToString(score);
    r
  }

  /** A score of 87 is badged "87 / 100". */
  lemma BadgeExample()
    ensures BadgeLabel(87) == "87 / 100"
  {
    assert IntToString(87) == "87";
  }

  /** Line 138: the caption under the badge. The rank name follows
      "Rank: " directly; the percentile appears followed by `%`. */
  function RankCaption(score: int): (r: string)
    ensures |r| > 6 && r[..6] == "Rank: "
    ensures OccursAt(r, RankPercentile(score).name, 6)
    ensures Contains(r, NatToString(RankPercentile(score).percentile) + "% profiles")
  {
    var rank := RankPercentile(score);
    var pct := NatToString(rank.percentile);
    var r := "Rank: " + rank.name + " \U{2022} Approx. top " + pct + "% profiles";
    assert r == "Rank: " + rank.name + (" \U{2022} Approx. top " + pct + "% profiles");
    assert r == ("Rank: " + rank.name + " \U{2022} Approx. top ") + (pct + "% profiles") + "";
    ContainsMiddle("Rank: " + rank.name + " \U{2022} Approx. top ", pct + "% profiles", "");
    r
  }

  /** Lines 151-164 applied to the sentence: the lines the certificate
      prints. Their words, read back, are the sentence's words in order. */
  method SentenceLines(score: int, date: string) returns (lines: seq<string>)
    ensures SplitWords(JoinSp(NonEmpty(lines))) == SplitWords(Sentence(score, date))
    ensures forall k :: 0 <= k < |lines| ==> |lines[k]| <= MaxChars || lines[k] in SplitWords(Sentence(score, date))
  {
    var words := SplitWords(Sentence(score, date));
    lines := WrapWords(words);
    SplitJoinWords(words);
  }
}

=== FILE: decimal.dfy ===
/** Decimal digits and the two conversions the system relies on: Python's
    `str(n)` for an integer (used by every f-string that prints a score, a
    percentile or a count) and `int(raw)` for a run of ASCII digits (used by
    the stats heuristic). */
module Decimal {
  import opened Options

  predicate IsDigit(c: char) {
    '0' <= c <= '9'
  }

  predicate AllDigits(s: string) {
    forall k :: 0 <= k < |s| ==> IsDigit(s[k])
  }

  function DigitValue(c: char): (d: nat)
    requires IsDigit(c)
    ensures d < 10
  {
    c as int - '0' as int
  }

  function DigitChar(d: nat): (c: char)
    requires d < 10
    ensures IsDigit(c) && DigitValue(c) == d
  {
    ('0' as int + d) as char
  }

  /** Python's `int(s)` on a non-empty run of ASCII digits; leading zeros are
      accepted (`int("007") == 7`). */
  function DigitsValue(s: string): nat
    requires AllDigits(s)
  {
    if s == [] then 0
    else DigitsValue(s[..|s| - 1]) * 10 + DigitValue(s[|s| - 1])
  }

  /** Python's `str(n)` for a non-negative integer: no grouping, no sign,
      no leading zero. */
  function NatToString(n: nat): (s: string)
    ensures |s| > 0 && AllDigits(s)
    ensures |s| > 1 ==> s[0] != '0'
    ensures DigitsValue(s) == n
  {
    if n < 10 then
      var s := [DigitChar(n)];
      assert s[..|s| - 1] == [];
      s
    else
      var prefix := NatToString(n / 10);
      var s := prefix + [DigitChar(n % 10)];
      assert s[..|s| - 1] == prefix;
      s
  }

  /** Python's `str(i)` for any integer: a `-` sign before the magnitude when
      negative. */
  function IntToString(i: int): (s: string)
    ensures |s| > 0
    ensures i >= 0 <==> IsDigit(s[0])
    ensures i < 0 <==> s[0] == '-'
    ensures var m := if i < 0 then s[1..] else s;
      && |m| > 0 && AllDigits(m) && (|m| > 1 ==> m[0] != '0')
      && DigitsValue(m) == if i < 0 then -i else i
  {
    if i < 0 then
      var s := "-" + NatToString(-i);
      assert s[1..] == NatToString(-i);
      s
    else NatToString(i)
  }

  /** Reads back what IntToString prints: an optional `-` and at least one
      digit; anything else is None. */
  function ParseInt(s: string): Option<int> {
    if |s| > 0 && s[0] == '-' then
      if |s| > 1 && AllDigits(s[1..]) then Some(-(DigitsValue(s[1..]) as int)) else None
    else if |s| > 0 && AllDigits(s) then Some(DigitsValue(s) as int)
    else None
  }

  /** Printing an integer and reading it back gives the integer again. */
  lemma IntRoundTrip(i: int)
    ensures ParseInt(IntToString(i)) == Some(i)
  {
    if i < 0 {
      var s := IntToString(i);
      assert s[1..] == NatToString(-i);
    }
  }

  /** Two integers print alike only when they are equal. */
  lemma IntToStringInjective(a: int, b: int)
    requires IntToString(a) == IntToString(b)
    ensures a == b
  {
    IntRoundTrip(a);
    IntRoundTrip(b);
  }
}

=== FILE: options.dfy ===
/** The optional value that stands for Python's `None` wherever the source
    returns or accepts "a value or None". */
module Options {

  datatype Option<+T> = None | Some(value: T)
}

=== FILE: profile_stats.dfy ===
/** The network-stats heuristic of app.py: `parse_profile_stats` reads an
    optional connection count and an optional follower count out of the
    extracted profile text with the pattern
    `(\d[\d,]*\+?).{0,8}<keyword>s?`, case-insensitive, `.` matching
    newlines.

    The pattern is modelled by the set of its matches (RegexMatch) and
    Python's `re.search` by the choice it makes among them: the match with
    the least start and, at that start, the longest group 1. The longest
    group is what the backtracking engine reports because it tries the
    candidate ends of group 1 in strictly decreasing order: `[\d,]*` longest
    first, then `\+` before no `+`; a shorter run of `[\d,]*` ends on a digit
    or comma, so it can never be followed by the `+`. */
module ProfileStats {
  import opened Options
  import opened Decimal

  /** At most this many characters (newlines included) separate the number
      from the keyword. */
  const MaxGap: nat := 8

  /** `int()` on a decimal string of more digits than this raises
      ValueError: the default of `sys.set_int_max_str_digits` in the CPython
      releases that limit integer-string conversion. */
  const MaxStrDigits: nat := 4300

  /** The keywords; the optional trailing `s` of the pattern changes neither
      whether a match exists nor its group 1, so it is dropped. */
  const ConnectionKeyword: string := "connection"
  const FollowerKeyword: string := "follower"

  /** The dict `parse_profile_stats` returns. */
  datatype Stats = Stats(connections: Option<nat>, followers: Option<nat>)

  /** A start and end index into the text: group 1 is `s[start..end]`. */
  datatype Span = Span(start: nat, end: nat)

  /** A character of `[\d,]`. */
  predicate InRun(c: char) {
    IsDigit(c) || c == ','
  }

  /** Case-insensitive comparison as Python's `re.IGNORECASE` does it for an
      ASCII-letter pattern: ASCII capitals, and the four non-ASCII letters
      Python's re matches against ASCII ones (dotted capital I and dotless i
      against `i`, long s against `s`, the Kelvin sign against `k`). */
  function Fold(c: char): char {
    if 'A' <= c <= 'Z' then (c as int + 32) as char
    else if c == '\U{0130}' || c == '\U{0131}' then 'i'
    else if c == '\U{017F}' then 's'
    else if c == '\U{212A}' then 'k'
    else c
  }

  /** A keyword written in lower-case ASCII letters. */
  predicate IsKeyword(kw: string) {
    |kw| > 0 && forall k :: 0 <= k < |kw| ==> 'a' <= kw[k] <= 'z'
  }

  /** `kw` occurs at index `p` of `s`, ignoring case. */
  predicate KeywordAt(s: string, p: int, kw: string) {
    0 <= p && p + |kw| <= |s| && forall k :: 0 <= k < |kw| ==> Fold(s[p + k]) == kw[k]
  }

  /** `.{0,8}kw` matches at index `q`. */
  predicate KeywordWithin(s: string, q: int, kw: string) {
    exists p | q <= p <= q + MaxGap :: KeywordAt(s, p, kw)
  }

  /** Every character of `s[a..b]` is in `[\d,]`. */
  predicate RunBody(s: string, a: int, b: int) {
    0 <= a <= b <= |s| && forall k :: a <= k < b ==> InRun(s[k])
  }

  /** The whole pattern matches at index `i` with group 1 equal to
      `s[i..q]`: a digit, then `[\d,]*`, then an optional `+`, then the
      keyword at most MaxGap characters later. */
  predicate RegexMatch(s: string, i: int, q: int, kw: string) {
    && 0 <= i < q <= |s|
    && IsDigit(s[i])
    && (RunBody(s, i + 1, q) || (s[q - 1] == '+' && RunBody(s, i + 1, q - 1)))
    && KeywordWithin(s, q, kw)
  }

  /** The end of the longest run of `[\d,]` that begins at `j`. */
  function RunEnd(s: string, j: nat): (e: nat)
    requires j <= |s|
    ensures RunBody(s, j, e)
    ensures e == |s| || !InRun(s[e])
    decreases |s| - j
  {
    if j < |s| && InRun(s[j]) then RunEnd(s, j + 1) else j
  }

  /** A character the keyword's first letter can match is neither in
      `[\d,]` nor `+`. */
  lemma KeywordStartsOutsideRun(s: string, p: int, kw: string)
    requires IsKeyword(kw)
    requires KeywordAt(s, p, kw)
    ensures !InRun(s[p]) && s[p] != '+'
  {
    assert Fold(s[p + 0]) == kw[0];
  }

  /** Every match at `i` ends at most one `+` past the run RunEnd finds,
      and a keyword matched after it starts at or after the run's end
      (after the `+`, when one follows the run). */
  lemma MatchShape(s: string, i: nat, q: int, kw: string)
    requires IsKeyword(kw)
    requires i < |s|
    requires RegexMatch(s, i, q, kw)
    ensures var e := RunEnd(s, i + 1);
      && (q <= e || (q == e + 1 && s[e] == '+'))
      && (e < |s| && s[e] == '+' ==> KeywordWithin(s, e + 1, kw))
      && ((e == |s| || s[e] != '+') ==> KeywordWithin(s, e, kw))
  {
    var e := RunEnd(s, i + 1);
    var p :| q <= p <= q + MaxGap && KeywordAt(s, p, kw);
    KeywordStartsOutsideRun(s, p, kw);
    RunEndBounds(s, i + 1, p);
    if RunBody(s, i + 1, q) {
      RunEndBounds(s, i + 1, q);
    } else {
      RunEndBounds(s, i + 1, q - 1);
    }
    if e < |s| && s[e] == '+' {
      assert KeywordAt(s, p, kw) && e + 1 <= p <= e + 1 + MaxGap;
    } else {
      assert KeywordAt(s, p, kw) && e <= p <= e + MaxGap;
    }
  }

  /** RunEnd finds the longest run: every run from `a` ends at or before it,
      and so does every stretch from `a` that meets a character outside
      `[\d,]`. */
  lemma {:induction false} RunEndBounds(s: string, a: nat, b: int)
    requires a <= b <= |s|
    ensures RunBody(s, a, b) ==> b <= RunEnd(s, a)
    ensures b < |s| && !InRun(s[b]) ==> RunEnd(s, a) <= b
    decreases |s| - a
  {
    if a < b && InRun(s[a]) {
      RunEndBounds(s, a + 1, b);
    }
  }

  /** The end of group 1 that `re.search` reports for a match starting at
      `i`, or None when the pattern does not match there. */
  function MatchEndAt(s: string, i: nat, kw: string): (r: Option<nat>)
    requires IsKeyword(kw)
    requires i < |s|
    ensures r.Some? ==> RegexMatch(s, i, r.value, kw)
    ensures r.Some? ==> forall q :: RegexMatch(s, i, q, kw) ==> q <= r.value
    ensures r.None? ==> forall q :: !RegexMatch(s, i, q, kw)
  {
    if !IsDigit(s[i]) then None
    else
      var e := RunEnd(s, i + 1);
      if e < |s| && s[e] == '+' && KeywordWithin(s, e + 1, kw) then
        assert RunBody(s, i + 1, e + 1 - 1);
        MatchShapeAll(s, i, kw);
        Some(e + 1)
      else if KeywordWithin(s, e, kw) then
        MatchShapeAll(s, i, kw);
        Some(e)
      else
        MatchShapeAll(s, i, kw);
        None
  }

  lemma MatchShapeAll(s: string, i: nat, kw: string)
    requires IsKeyword(kw)
    requires i < |s|
    ensures forall q :: RegexMatch(s, i, q, kw) ==>
      var e := RunEnd(s, i + 1);
      && (q <= e || (q == e + 1 && s[e] == '+'))
      && (e < |s| && s[e] == '+' ==> KeywordWithin(s, e + 1, kw))
      && ((e == |s| || s[e] != '+') ==> KeywordWithin(s, e, kw))
  {
    forall q | RegexMatch(s, i, q, kw) {
      MatchShape(s, i, q, kw);
    }
  }

  /** The match `re.search` reports: no match starts earlier, and none at
      the same start has a longer group 1. */
  ghost predicate LeftmostLongest(s: string, st: int, q: int, kw: string) {
    && RegexMatch(s, st, q, kw)
    && (forall st', q' :: st' < st ==> !RegexMatch(s, st', q', kw))
    && (forall q' :: RegexMatch(s, st, q', kw) ==> q' <= q)
  }

  /** There is only one such match. */
  lemma LeftmostLongestUnique(s: string, a: int, b: int, c: int, d: int, kw: string)
    requires LeftmostLongest(s, a, b, kw) && LeftmostLongest(s, c, d, kw)
    ensures a == c && b == d
  {
  }

  /** `re.search` from index `i` on: the first start at or after `i` where
      the pattern matches, with the longest group 1 there. */
  function SearchFrom(s: string, i: nat, kw: string): (r: Option<Span>)
    requires IsKeyword(kw)
    requires i <= |s|
    requires forall st, q :: st < i ==> !RegexMatch(s, st, q, kw)
    ensures r.None? ==> forall st, q :: !RegexMatch(s, st, q, kw)
    ensures r.Some? ==> LeftmostLongest(s, r.value.start, r.value.end, kw)
    decreases |s| - i
  {
    if i == |s| then None
    else
      match MatchEndAt(s, i, kw)
      case Some(q) => Some(Span(i, q))
      case None => SearchFrom(s, i + 1, kw)
  }

  /** Python's `re.search(pattern, s, re.IGNORECASE | re.DOTALL)`: the
      leftmost match, with its longest group 1, or None when nothing
      matches anywhere. */
  function Search(s: string, kw: string): (r: Option<Span>)
    requires IsKeyword(kw)
    ensures r.None? <==> forall st, q :: !RegexMatch(s, st, q, kw)
    ensures r.Some? ==> LeftmostLongest(s, r.value.start, r.value.end, kw)
  {
    SearchFrom(s, 0, kw)
  }

  /** Python's `s.replace(c, "")`. */
  function RemoveAll(s: string, c: char): (r: string)
    ensures |r| <= |s|
    ensures forall k :: 0 <= k < |r| ==> r[k] in s && r[k] != c
    ensures c !in s ==> r == s
  {
    if s == [] then []
    else if s[0] == c then RemoveAll(s[1..], c)
    else [s[0]] + RemoveAll(s[1..], c)
  }

  lemma {:induction false} RemoveAllAppend(a: string, b: string, c: char)
    ensures RemoveAll(a + b, c) == RemoveAll(a, c) + RemoveAll(b, c)
    decreases |a|
  {
    if a == [] {
      assert a + b == b;
    } else {
      assert (a + b)[0] == a[0];
      assert (a + b)[1..] == a[1..] + b;
      RemoveAllAppend(a[1..], b, c);
    }
  }

  /** A group 1 of the pattern: a digit, `[\d,]*`, an optional `+`. */
  predicate IsGroup(g: string) {
    && |g| > 0 && IsDigit(g[0])
    && (forall k :: 1 <= k < |g| ==> InRun(g[k]) || (k == |g| - 1 && g[k] == '+'))
  }

  /** The digits of a group: the `+` dropped, then the commas. A group
      starts with a digit, so there is at least one. */
  function GroupDigits(g: string): (d: string)
    requires IsGroup(g)
    ensures |d| > 0 && AllDigits(d)
  {
    var body := if g[|g| - 1] == '+' then g[..|g| - 1] else g;
    var d := RemoveAll(body, ',');
    assert d == [g[0]] + RemoveAll(body[1..], ',') by {
      assert body[0] == g[0];
    }
    assert AllDigits(d) by {
      forall k | 0 <= k < |d| ensures IsDigit(d[k]) {
        assert d[k] in body;
      }
    }
    d
  }

  /** The number a group denotes: its digits, read in decimal, with the
      grouping commas and the `+` (meaning "or more") ignored. */
  function CountOf(g: string): nat
    requires IsGroup(g)
  {
    DigitsValue(GroupDigits(g))
  }

  /** A group `int` accepts: at most MaxStrDigits digits once the commas
      and the `+` are gone. */
  predicate Readable(g: string) {
    IsGroup(g) && |GroupDigits(g)| <= MaxStrDigits
  }

  /** Lines 70-75 (and 84-89): drop every comma, then one trailing `+`, then
      `int(raw)`. Python's `int` raises on anything but digits and on more
      than MaxStrDigits of them; that is the `except` branch, which gives
      None. */
  function ReadCount(group: string): (r: Option<nat>)
    ensures r.Some? ==> 0 < |RemoveAll(group, ',')| <= MaxStrDigits + 1
  {
    var noCommas := RemoveAll(group, ',');
    var raw := if |noCommas| > 0 && noCommas[|noCommas| - 1] == '+'
      then noCommas[..|noCommas| - 1] else noCommas;
    if |raw| > 0 && AllDigits(raw) && |raw| <= MaxStrDigits then Some(DigitsValue(raw)) else None
  }

  /** The source's order of operations (commas out, then the `+`, then
      `int`) reads a group as CountOf says when its digits are few enough
      for `int`, and reaches the `except` branch (None) otherwise. No other
      group makes `int` raise. */
  lemma GroupReads(g: string)
    requires IsGroup(g)
    ensures ReadCount(g) == if Readable(g) then Some(CountOf(g)) else None
  {
    if g[|g| - 1] == '+' {
      PlusGroupReads(g);
    } else {
      PlainGroupReads(g);
    }
  }

  /** GroupReads for a group ending in `+`: the `+` survives the comma
      removal as the last character, and is then dropped. */
  lemma PlusGroupReads(g: string)
    requires IsGroup(g) && g[|g| - 1] == '+'
    ensures ReadCount(g) == if Readable(g) then Some(CountOf(g)) else None
  {
    var d := GroupDigits(g);
    var noCommas := RemoveAll(g, ',');
    var body := g[..|g| - 1];
    assert g == body + "+";
    RemoveAllAppend(body, "+", ',');
    assert noCommas == d + "+";
    assert noCommas[..|noCommas| - 1] == d;
  }

  /** GroupReads for a group without `+`: the comma removal leaves the
      digits, whose last one is not a `+`. */
  lemma PlainGroupReads(g: string)
    requires IsGroup(g) && g[|g| - 1] != '+'
    ensures ReadCount(g) == if Readable(g) then Some(CountOf(g)) else None
  {
    var d := GroupDigits(g);
    assert RemoveAll(g, ',') == d;
    assert IsDigit(d[|d| - 1]);
  }

  /** Group 1 of every match is a group. */
  lemma MatchIsGroup(s: string, i: int, q: int, kw: string)
    requires RegexMatch(s, i, q, kw)
    ensures IsGroup(s[i..q])
  {
  }

  /** One field of `parse_profile_stats`: None when the pattern matches
      nowhere, or when group 1 of the match `re.search` reports holds more
      digits than `int` accepts; otherwise the count that group denotes. */
  function ParseCount(s: string, kw: string): (r: Option<nat>)
    requires IsKeyword(kw)
    ensures (forall st, q :: !RegexMatch(s, st, q, kw)) ==> r.None?
    ensures r.None? <==> forall st, q :: LeftmostLongest(s, st, q, kw) ==> !Readable(s[st..q])
    ensures r.Some? ==> exists st, q ::
      (LeftmostLongest(s, st, q, kw) && Readable(s[st..q]) && r.value == CountOf(s[st..q]))
  {
    match Search(s, kw)
    case None => None
    case Some(sp) =>
      MatchIsGroup(s, sp.start, sp.end, kw);
      GroupReads(s[sp.start..sp.end]);
      OnlyMatch(s, sp.start, sp.end, kw);
      ReadCount(s[sp.start..sp.end])
  }

  /** Every leftmost-longest match is the given one. */
  lemma OnlyMatch(s: string, st: int, q: int, kw: string)
    requires LeftmostLongest(s, st, q, kw)
    ensures forall st', q' :: LeftmostLongest(s, st', q', kw) ==> st' == st && q' == q
  {
    forall st', q' | LeftmostLongest(s, st', q', kw)
      ensures st' == st && q' == q
    {
      LeftmostLongestUnique(s, st, q, st', q', kw);
    }
  }

  /** `parse_profile_stats`: the two fields are searched for independently,
      each None exactly when its keyword's match is missing or too long for
      `int`, and otherwise the count that match's group denotes. */
  function ParseProfileStats(text: string): (r: Stats)
    ensures r.connections.None? <==>
      forall st, q :: LeftmostLongest(text, st, q, ConnectionKeyword) ==> !Readable(text[st..q])
    ensures r.followers.None? <==>
      forall st, q :: LeftmostLongest(text, st, q, FollowerKeyword) ==> !Readable(text[st..q])
    ensures r.connections.Some? ==> exists st, q ::
      (LeftmostLongest(text, st, q, ConnectionKeyword) && Readable(text[st..q])
        && r.connections.value == CountOf(text[st..q]))
    ensures r.followers.Some? ==> exists st, q ::
      (LeftmostLongest(text, st, q, FollowerKeyword) && Readable(text[st..q])
        && r.followers.value == CountOf(text[st..q]))
  {
    Stats(ParseCount(text, ConnectionKeyword), ParseCount(text, FollowerKeyword))
  }

  /** The match `re.search` reports at a known place: no digit before
      `i0`, a run from `i0` to `e`, and the keyword far enough after it. */
  lemma MatchAtRun(s: string, i0: nat, e: nat, p: nat, kw: string)
    requires IsKeyword(kw)
    requires i0 < e < |s|
    requires forall k :: 0 <= k < i0 ==> !IsDigit(s[k])
    requires IsDigit(s[i0]) && RunBody(s, i0 + 1, e) && !InRun(s[e])
    requires KeywordAt(s, p, kw)
    requires s[e] == '+' ==> e + 1 <= p <= e + 1 + MaxGap
    requires s[e] != '+' ==> e <= p <= e + MaxGap
    ensures LeftmostLongest(s, i0, if s[e] == '+' then e + 1 else e, kw)
  {
    var q := if s[e] == '+' then e + 1 else e;
    RunEndBounds(s, i0 + 1, e);
    assert RunBody(s, i0 + 1, q) || (s[q - 1] == '+' && RunBody(s, i0 + 1, q - 1));
    assert KeywordWithin(s, q, kw);
    assert RegexMatch(s, i0, q, kw);
    forall q' | RegexMatch(s, i0, q', kw) ensures q' <= q {
      MatchShape(s, i0, q', kw);
    }
  }

  /** ParseCount reads the group of the match `re.search` reports. */
  lemma ParseCountOfMatch(s: string, st: int, q: int, kw: string)
    requires IsKeyword(kw)
    requires LeftmostLongest(s, st, q, kw)
    ensures IsGroup(s[st..q])
    ensures ParseCount(s, kw) == if Readable(s[st..q]) then Some(CountOf(s[st..q])) else None
  {
    MatchIsGroup(s, st, q, kw);
    var sp := Search(s, kw);
    assert sp.Some?;
    LeftmostLongestUnique(s, st, q, sp.value.start, sp.value.end, kw);
    GroupReads(s[st..q]);
  }

  /** A count written in front of the keyword is found and read back: text
      without digits, then a number (digits, grouping commas allowed), then
      a gap of at most MaxGap characters that does not continue the number,
      then the keyword in any case. The `+` of "500+" may open the gap. */
  lemma CountFound(pre: string, d: string, gap: string, word: string, rest: string, kw: string)
    requires IsKeyword(kw)
    requires forall k :: 0 <= k < |pre| ==> !IsDigit(pre[k])
    requires |d| > 0 && IsDigit(d[0]) && forall k :: 0 <= k < |d| ==> InRun(d[k])
    requires |gap| <= MaxGap && (gap == [] || !InRun(gap[0]))
    requires |word| == |kw| && forall k :: 0 <= k < |kw| ==> Fold(word[k]) == kw[k]
    ensures IsGroup(d)
    ensures ParseCount(pre + d + gap + word + rest, kw) == if Readable(d) then Some(CountOf(d)) else None
  {
    var tail := gap + word + rest;
    var s := pre + d + tail;
    assert s == pre + d + gap + word + rest;
    var i0 := |pre|;
    var e := |pre| + |d|;
    var p := |gap|;
    assert KeywordAt(tail, p, kw) by {
      forall k | 0 <= k < |kw| ensures Fold(tail[p + k]) == kw[k] {
        assert tail[p + k] == word[k];
      }
    }
    KeywordStartsOutsideRun(tail, p, kw);
    assert tail[0] == if gap != [] then gap[0] else word[0];
    CountFoundAt(pre, d, tail, p, kw);
  }

  /** CountFound with the text after the number taken as a whole. */
  lemma CountFoundAt(pre: string, d: string, tail: string, p: nat, kw: string)
    requires IsKeyword(kw)
    requires forall k :: 0 <= k < |pre| ==> !IsDigit(pre[k])
    requires |d| > 0 && IsDigit(d[0]) && forall k :: 0 <= k < |d| ==> InRun(d[k])
    requires KeywordAt(tail, p, kw)
    requires tail[0] == '+' ==> 1 <= p <= 1 + MaxGap
    requires tail[0] != '+' ==> p <= MaxGap
    requires !InRun(tail[0])
    ensures IsGroup(d)
    ensures ParseCount(pre + d + tail, kw) == if Readable(d) then Some(CountOf(d)) else None
  {
    var s := pre + d + tail;
    var i0 := |pre|;
    var e := |pre| + |d|;
    var q := if tail[0] == '+' then e + 1 else e;
    MatchAfterDigitFreeText(pre, d, tail, p, kw);
    ParseCountOfMatch(s, i0, q, kw);
    assert s[i0..e] == d;
    if tail[0] == '+' {
      SliceSnoc(s, i0, e);
      assert s[i0..q] == d + "+";
      assert (d + "+")[..|d|] == d;
    }
  }

  /** A slice grown by the next character. */
  lemma SliceSnoc(s: string, a: nat, b: nat)
    requires a <= b < |s|
    ensures s[a..b + 1] == s[a..b] + [s[b]]
  {
  }

  lemma MatchAfterDigitFreeText(pre: string, d: string, tail: string, p: nat, kw: string)
    requires IsKeyword(kw)
    requires forall k :: 0 <= k < |pre| ==> !IsDigit(pre[k])
    requires |d| > 0 && IsDigit(d[0]) && forall k :: 0 <= k < |d| ==> InRun(d[k])
    requires KeywordAt(tail, p, kw)
    requires tail[0] == '+' ==> 1 <= p <= 1 + MaxGap
    requires tail[0] != '+' ==> p <= MaxGap
    requires !InRun(tail[0])
    ensures LeftmostLongest(pre + d + tail, |pre|, if tail[0] == '+' then |pre| + |d| + 1 else |pre| + |d|, kw)
  {
    var s := pre + d + tail;
    var i0 := |pre|;
    var e := |pre| + |d|;
    assert KeywordAt(s, e + p, kw) by {
      forall k | 0 <= k < |kw| ensures Fold(s[e + p + k]) == kw[k] {
        assert s[e + p + k] == tail[p + k];
      }
    }
    assert RunBody(s, i0 + 1, e) by {
      forall k | i0 + 1 <= k < e ensures InRun(s[k]) {
        assert s[k] == d[k - i0];
      }
    }
    assert forall k :: 0 <= k < i0 ==> !IsDigit(s[k]) by {
      forall k | 0 <= k < i0 ensures !IsDigit(s[k]) {
        assert s[k] == pre[k];
      }
    }
    assert s[e] == tail[0];
    assert s[i0] == d[0];
    MatchAtRun(s, i0, e, e + p, kw);
  }

  /** The count line as a PDF export prints it, e.g. "500+ connections":
      every natural number printed in decimal before the keyword is read
      back exactly, whatever the digits-free text before it and whatever
      follows, as long as `int` accepts that many digits. */
  lemma CountRoundTrip(pre: string, n: nat, gap: string, word: string, rest: string, kw: string)
    requires IsKeyword(kw)
    requires forall k :: 0 <= k < |pre| ==> !IsDigit(pre[k])
    requires |gap| <= MaxGap && (gap == [] || !InRun(gap[0]))
    requires |word| == |kw| && forall k :: 0 <= k < |kw| ==> Fold(word[k]) == kw[k]
    ensures ParseCount(pre + NatToString(n) + gap + word + rest, kw) ==
      if |NatToString(n)| <= MaxStrDigits then Some(n) else None
  {
    var d := NatToString(n);
    CountFound(pre, d, gap, word, rest, kw);
    assert GroupDigits(d) == d by {
      NoCommaUnchanged(d);
    }
  }

  /** A count of more than MaxStrDigits digits makes `int` raise, and the
      `except` branch leaves the field None. */
  lemma TooLongIsNone(d: string)
    requires AllDigits(d) && |d| > MaxStrDigits
    ensures ParseCount(d + " connections", ConnectionKeyword) == None
  {
    CountFound("", d, " ", "connection", "s", ConnectionKeyword);
    assert "" + d + " " + "connection" + "s" == d + " connections";
    assert GroupDigits(d) == d by {
      NoCommaUnchanged(d);
    }
  }

  lemma {:induction false} NoCommaUnchanged(d: string)
    requires AllDigits(d)
    ensures RemoveAll(d, ',') == d
    decreases |d|
  {
    if d != [] {
      NoCommaUnchanged(d[1..]);
      assert [d[0]] + d[1..] == d;
    }
  }

  /** Text without a digit yields no count, whatever words it contains. */
  lemma NoDigitNoCount(s: string, kw: string)
    requires IsKeyword(kw)
    requires forall k :: 0 <= k < |s| ==> !IsDigit(s[k])
    ensures ParseCount(s, kw) == None
  {
  }

  /** Text in which no character matches the keyword's first letter yields
      no count. */
  lemma NoKeywordNoCount(s: string, kw: string)
    requires IsKeyword(kw)
    requires forall k :: 0 <= k < |s| ==> Fold(s[k]) != kw[0]
    ensures ParseCount(s, kw) == None
  {
    forall p | 0 <= p < |s| ensures !KeywordAt(s, p, kw) {
      assert Fold(s[p + 0]) != kw[0];
    }
  }

  // Worked examples. The helper lemmas among them (FiveHundred, Pieces1234,
  // the *Text lemmas) each fix one small fact about a string literal, so
  // that no single proof has to unfold a whole literal at once.

  /** Empty text has neither count. */
  lemma EmptyTextExample()
    ensures ParseProfileStats("") == Stats(None, None)
  {
    NoDigitNoCount("", ConnectionKeyword);
    NoDigitNoCount("", FollowerKeyword);
  }

  /** "500+ connections" reads 500 connections and no followers. */
  lemma PlusSuffixExample()
    ensures ParseProfileStats("500+ connections") == Stats(Some(500), None)
  {
    CountRoundTrip("", 500, "+ ", "connection", "s", ConnectionKeyword);
    FiveHundred();
    PlusSuffixText();
    NoFollowerIn500();
  }

  lemma PlusSuffixText()
    ensures "" + NatToString(500) + "+ " + "connection" + "s" == "500+ connections"
  {
    FiveHundred();
    assert "" + "500" + "+ " == "500+ ";
    assert "500+ " + "connection" == "500+ connection";
    assert "500+ connection" + "s" == "500+ connections";
  }

  lemma FiveHundred()
    ensures NatToString(500) == "500"
  {
    assert NatToString(5) == "5";
    assert NatToString(50) == "50";
  }

  lemma NoFollowerIn500()
    ensures ParseCount("500+ connections", FollowerKeyword) == None
  {
    NoKeywordNoCount("500+ connections", FollowerKeyword);
  }

  /** "1,234 followers" reads 1234 followers and no connections. */
  lemma GroupingCommaExample()
    ensures ParseProfileStats("1,234 followers") == Stats(None, Some(1234))
  {
    CountFound("", "1,234", " ", "follower", "s", FollowerKeyword);
    GroupingCommaText();
    NoConnectionIn1234();
  }

  lemma GroupingCommaText()
    ensures "" + "1,234" + " " + "follower" + "s" == "1,234 followers"
    ensures GroupDigits("1,234") == "1234"
    ensures CountOf("1,234") == 1234
  {
    assert "" + "1,234" == "1,234";
    assert "1,234" + " " == "1,234 ";
    assert "1,234 " + "follower" == "1,234 follower";
    assert "1,234 follower" + "s" == "1,234 followers";
    GroupingCommaValue();
  }

  lemma GroupingCommaValue()
    ensures GroupDigits("1,234") == "1234"
    ensures CountOf("1,234") == 1234
  {
    GroupingCommaDigits();
    DigitsOf1234();
  }

  lemma DigitsOf1234()
    ensures DigitsValue("1234") == 1234
  {
    assert NatToString(1234) == "1234";
  }

  lemma GroupingCommaDigits()
    ensures RemoveAll("1,234", ',') == "1234"
  {
    Pieces1234();
    RemoveCommaBetween("1", "234");
  }

  lemma Pieces1234()
    ensures "1" + "," + "234" == "1,234"
    ensures "1" + "234" == "1234"
  {
  }

  /** A comma between two digit strings is dropped, nothing else. */
  lemma RemoveCommaBetween(a: string, b: string)
    requires AllDigits(a) && AllDigits(b)
    ensures RemoveAll(a + "," + b, ',') == a + b
  {
    DropLastComma(a);
    RemoveAllAppend(a + ",", b, ',');
    NoCommaUnchanged(b);
  }

  /** A trailing comma after digits is dropped. */
  lemma DropLastComma(a: string)
    requires AllDigits(a)
    ensures RemoveAll(a + ",", ',') == a
  {
    RemoveAllAppend(a, ",", ',');
    NoCommaUnchanged(a);
    assert RemoveAll(",", ',') == "";
  }

  lemma NoConnectionIn1234()
    ensures ParseCount("1,234 followers", ConnectionKeyword) == None
  {
    NoKeywordNoCount("1,234 followers", ConnectionKeyword);
  }

  /** The leftmost number wins even when another sits closer to the
      keyword. */
  lemma LeftmostExample()
    ensures ParseCount("1 2 connections", ConnectionKeyword) == Some(1)
  {
    CountRoundTrip("", 1, " 2 ", "connection", "s", ConnectionKeyword);
    LeftmostText();
  }

  lemma LeftmostText()
    ensures NatToString(1) == "1"
    ensures "" + NatToString(1) + " 2 " + "connection" + "s" == "1 2 connections"
  {
    assert NatToString(1) == "1";
  }

  /** The gap may hold a newline, and case is ignored. */
  lemma NewlineCaseExample()
    ensures ParseCount("500\nCONNECTIONS", ConnectionKeyword) == Some(500)
  {
    CountRoundTrip("", 500, "\n", "CONNECTION", "S", ConnectionKeyword);
    FiveHundred();
    NewlineCaseText();
  }

  lemma NewlineCaseText()
    ensures "" + NatToString(500) + "\n" + "CONNECTION" + "S" == "500\nCONNECTIONS"
  {
    FiveHundred();
    assert "" + "500" + "\n" == "500\n";
    assert "500\n" + "CONNECTION" == "500\nCONNECTION";
    assert "500\nCONNECTION" + "S" == "500\nCONNECTIONS";
  }
}

=== FILE: prompt.dfy ===
/** `build_prompt` of app.py: the instruction sent to the completion
    endpoint, composed from the extracted profile text, an optional target
    role and the parsed network stats. It is a pure function of its three
    arguments. */
module Prompt {
  import opened Options
  import opened Decimal
  import opened Words
  import opened ProfileStats

  /** The fixed opening: the coaching instruction and the heading of the
      profile text. */
  const Intro: string :=
      "You are an expert LinkedIn profile and career coach.\n\n"
      + "You will receive the raw text of a LinkedIn profile exported as PDF.\n"
      + "Analyse it for clarity, impact, and alignment with the target role.\n\n"
      + "PROFILE TEXT (from PDF):\n"

  /** The dashed line printed before and after the profile text. */
  const Delimiter: string := "------------------------"

  /** Everything before the profile text. */
  const Preamble: string := Intro + Delimiter + "\n"

  /** What follows the profile text up to the role part. */
  const Closing: string := "\n" + Delimiter + "\n"

  /** The role line's label; the role follows it on the same line. */
  const RoleLabel: string := "\n" + "Target job role / title: "

  /** The stats part opens on a new line with these words either way. */
  const StatsLead: string := "\n" + "Parsed network stats from the PDF "

  const StatsHeading: string := StatsLead + "(may be approximate):\n"

  const StatsMissing: string := StatsLead + "were not available.\n"

  /** The output contract the model is asked to meet: pure JSON with the
      listed fields. */
  const Schema: string :=
      "Return ONLY a single valid JSON object, no backticks, no extra text.\n"
      + "JSON schema:\n"
      + "{\n"
      + "  \"score\": number,            // 0-100 overall strength\n"
      + "  \"connections\": number | null, // parsed / estimated from profile\n"
      + "  \"followers\": number | null,   // parsed / estimated from profile\n"
      + "  \"headline\": {\n"
      + "    \"suggestion\": string,   // a single, ready-to-use LinkedIn headline\n"
      + "    \"explanation\": string   // why this headline works\n"
      + "  },\n"
      + "  \"about\": {\n"
      + "    \"suggestion\": string,   // a full About section the user can copy-paste\n"
      + "    \"explanation\": string   // how it improves clarity and positioning\n"
      + "  },\n"
      + "  \"experience\": [\n"
      + "    { \"role\": string, \"tips\": string } // concrete phrasing suggestions per role\n"
      + "  ],\n"
      + "  \"skills\": {\n"
      + "    \"missing\": string | string[],\n"
      + "    \"notes\": string\n"
      + "  },\n"
      + "  \"keywords\": string[],\n"
      + "  \"summary\": string           // 2-3 line summary of key advice in natural language\n"
      + "}\n"
      + "Make sure the JSON is strictly valid and parsable."

  /** The stats argument: None, or a dict whose values are counts or None
      (what `parse_profile_stats` returns). */
  type StatsArg = Option<map<string, Option<int>>>

  /** Python truthiness of `target_role`: neither None nor "". */
  predicate HasRole(role: Option<string>) {
    role.Some? && role.value != ""
  }

  /** Python truthiness of `stats`: neither None nor an empty dict. */
  predicate HasStats(stats: StatsArg) {
    stats.Some? && stats.value != map[]
  }

  /** `stats.get(key)`: None for a missing key. */
  function Lookup(m: map<string, Option<int>>, key: string): Option<int> {
    if key in m then m[key] else None
  }

  /** `f"{value or 'unknown'}"`: a count in decimal, or "unknown" for None
      and for 0 alike, since 0 is falsy. */
  function CountText(v: Option<int>): (r: string)
    ensures r == "unknown" <==> v.None? || v == Some(0)
    ensures r != "unknown" ==> ParseInt(r) == v
  {
    if v.None? || v.value == 0 then "unknown"
    else
      IntRoundTrip(v.value);
      IntToString(v.value)
  }

  /** Line 100: the role line, or nothing when the role is None or "". */
  function RolePart(role: Option<string>): (r: string)
    ensures r == "" <==> !HasRole(role)
    ensures HasRole(role) ==> r == RoleLabel + role.value
  {
    if HasRole(role) then RoleLabel + role.value else ""
  }

  /** Lines 102-109: the two count lines under a heading, or the
      "not available" line when the stats are None or empty. */
  function StatsPart(stats: StatsArg): (r: string)
    ensures |r| > 0 && r[0] == '\n'
    ensures r == StatsMissing <==> !HasStats(stats)
    ensures HasStats(stats) ==> (r == StatsHeading
      + "- connections: " + CountText(Lookup(stats.value, "connections")) + "\n"
      + "- followers: " + CountText(Lookup(stats.value, "followers")) + "\n")
  {
    if HasStats(stats) then
      var r := StatsHeading
        + "- connections: " + CountText(Lookup(stats.value, "connections")) + "\n"
        + "- followers: " + CountText(Lookup(stats.value, "followers")) + "\n";
      HeadingIsNotMissing(r[|StatsHeading|..]);
      r
    else StatsMissing
  }

  /** The two forms of the stats part differ, whatever follows the
      heading. */
  lemma HeadingIsNotMissing(rest: string)
    ensures (StatsHeading + rest)[0] == '\n'
    ensures StatsHeading + rest != StatsMissing
  {
    var n := |StatsLead|;
    assert (StatsHeading + rest)[n] == StatsHeading[n] == '(';
    assert StatsMissing[n] == 'w';
  }

  /** `build_prompt`: the opening, the profile text between two dashed
      lines, the role part and the stats part each followed by a newline,
      and the schema instructions. The contract places every part; the
      Prompt* lemmas below read off what the role and stats parts show. */
  function BuildPrompt(text: string, role: Option<string>, stats: StatsArg): (r: string)
    ensures Laid(r, Preamble, text, Closing, RolePart(role), StatsPart(stats), Schema)
  {
    Assemble(Preamble, text, Closing, RolePart(role), StatsPart(stats), Schema)
  }

  /** Where the parts of a prompt sit in `r`: the opening, the text and the
      closing part from index 0, then the role part, a newline, the stats
      part, a newline and the schema, which ends `r`. */
  predicate Laid(r: string, pre: string, text: string, close: string, rolePart: string, statsPart: string, schema: string) {
    var a := |pre| + |text|;
    var b := a + |close|;
    var c := b + |rolePart|;
    var d := c + 1 + |statsPart|;
    && |r| == d + 1 + |schema|
    && r[..|pre|] == pre
    && r[|pre|..a] == text
    && r[a..b] == close
    && r[b..c] == rolePart
    && r[c] == '\n'
    && r[c + 1..d] == statsPart
    && r[d] == '\n'
    && r[d + 1..] == schema
  }

  /** The prompt's concatenation, for any parts. */
  function Assemble(pre: string, text: string, close: string, rolePart: string, statsPart: string, schema: string): (r: string)
    ensures Laid(r, pre, text, close, rolePart, statsPart, schema)
  {
    HeadLayout(pre, text, close, rolePart, statsPart, schema);
    var r := pre + text + close + rolePart + "\n" + statsPart + "\n" + schema;
    var head := pre + text + close;
    assert r == head + (rolePart + "\n" + statsPart + "\n" + schema);
    TailParts(head, rolePart, statsPart, schema);
    r
  }

  /** Where the role part, the stats part and the schema sit after a head. */
  lemma TailParts(head: string, rolePart: string, statsPart: string, schema: string)
    ensures var r := head + (rolePart + "\n" + statsPart + "\n" + schema);
      var c := |head| + |rolePart|;
      var d := c + 1 + |statsPart|;
      && |r| == d + 1 + |schema|
      && r[|head|..c] == rolePart
      && r[c] == '\n'
      && r[c + 1..d] == statsPart
      && r[d] == '\n'
      && r[d + 1..] == schema
  {
    var t := rolePart + "\n" + statsPart + "\n" + schema;
    var r := head + t;
    ThreeSlices(rolePart + "\n", statsPart, "\n" + schema);
    assert t == (rolePart + "\n") + statsPart + ("\n" + schema);
    assert r[|head|..] == t;
  }

  /** After the closing dashed line comes an empty line; the line after
      that is the role line exactly when a role is given. */
  lemma PromptRoleShown(text: string, role: Option<string>, stats: StatsArg)
    ensures var r := BuildPrompt(text, role, stats);
      HasRole(role) <==> r[|Preamble| + |text| + |Closing| + 1] != '\n'
  {
    var r := BuildPrompt(text, role, stats);
    LaidRoleStart(r, Preamble, text, Closing, RolePart(role), StatsPart(stats), Schema);
    RoleLabelSecond(role);
  }

  /** The character one past the closing part: the role part's second
      character, or the stats part's first when the role part is empty. */
  lemma LaidRoleStart(r: string, pre: string, text: string, close: string, rolePart: string, statsPart: string, schema: string)
    requires Laid(r, pre, text, close, rolePart, statsPart, schema)
    requires |statsPart| > 0
    requires rolePart == "" || |rolePart| >= 2
    ensures var b := |pre| + |text| + |close|;
      |r| > b + 1 && r[b + 1] == (if rolePart == "" then statsPart[0] else rolePart[1])
  {
    var b := |pre| + |text| + |close|;
    var c := b + |rolePart|;
    if rolePart == "" {
      assert r[c + 1..c + 1 + |statsPart|][0] == r[b + 1];
    } else {
      assert r[b..c][1] == r[b + 1];
    }
  }

  /** The role line's second character is the label's first letter. */
  lemma RoleLabelSecond(role: Option<string>)
    ensures HasRole(role) ==> |RolePart(role)| >= 2 && RolePart(role)[1] == 'T'
  {
    if HasRole(role) {
      assert RolePart(role)[1] == RoleLabel[1];
    }
  }

  /** A given role is printed after its label right after the closing dashed
      line. */
  lemma PromptRoleLine(text: string, role: Option<string>, stats: StatsArg)
    ensures var r := BuildPrompt(text, role, stats);
      var at := |Preamble| + |text| + |Closing|;
      HasRole(role) ==> r[at..at + |RoleLabel| + |role.value|] == RoleLabel + role.value
  {
    var r := BuildPrompt(text, role, stats);
    LaidRole(r, Preamble, text, Closing, RolePart(role), StatsPart(stats), Schema);
    if HasRole(role) {
      assert |RolePart(role)| == |RoleLabel| + |role.value|;
    }
  }

  /** The role part follows the closing part. */
  lemma LaidRole(r: string, pre: string, text: string, close: string, rolePart: string, statsPart: string, schema: string)
    requires Laid(r, pre, text, close, rolePart, statsPart, schema)
    ensures var b := |pre| + |text| + |close|;
      |r| >= b + |rolePart| && r[b..b + |rolePart|] == rolePart
  {
  }

  /** The stats part follows the role part after one newline, and one
      newline before the schema instructions ends the prompt. */
  lemma PromptStats(text: string, role: Option<string>, stats: StatsArg)
    ensures var r := BuildPrompt(text, role, stats);
      var at := |Preamble| + |text| + |Closing| + |RolePart(role)| + 1;
      var sp := StatsPart(stats);
      && |r| == at + |sp| + 1 + |Schema|
      && r[at..at + |sp|] == sp
      && r[at - 1] == '\n' && r[at + |sp|] == '\n'
  {
    var r := BuildPrompt(text, role, stats);
    LaidStats(r, Preamble, text, Closing, RolePart(role), StatsPart(stats), Schema);
  }

  /** The stats part sits between two newlines, and the schema follows. */
  lemma LaidStats(r: string, pre: string, text: string, close: string, rolePart: string, statsPart: string, schema: string)
    requires Laid(r, pre, text, close, rolePart, statsPart, schema)
    ensures var at := |pre| + |text| + |close| + |rolePart| + 1;
      && |r| == at + |statsPart| + 1 + |schema|
      && r[at..at + |statsPart|] == statsPart
      && r[at - 1] == '\n' && r[at + |statsPart|] == '\n'
  {
  }

  /** The argument the review endpoint passes: `parse_profile_stats`
      always returns a dict with both keys, possibly holding None. */
  function StatsArgOf(st: Stats): (r: StatsArg)
    ensures r.Some? && r.value.Keys == {"connections", "followers"}
    ensures Lookup(r.value, "connections") == (if st.connections.Some? then Some(st.connections.value as int) else None)
    ensures Lookup(r.value, "followers") == (if st.followers.Some? then Some(st.followers.value as int) else None)
  {
    Some(map["connections" := NatOption(st.connections), "followers" := NatOption(st.followers)])
  }

  /** A parsed count as a Python int or None. */
  function NatOption(v: Option<nat>): Option<int> {
    if v.Some? then Some(v.value as int) else None
  }

  /** In the review flow the stats heading is always printed, since the
      parsed dict is never empty; a positive count appears in decimal and
      a missing or zero count as "unknown". */
  lemma ReviewStatsShown(text: string)
    ensures var st := ParseProfileStats(text);
      && HasStats(StatsArgOf(st))
      && StatsPart(StatsArgOf(st)) == StatsHeading
        + "- connections: " + CountText(NatOption(st.connections)) + "\n"
        + "- followers: " + CountText(NatOption(st.followers)) + "\n"
  {
    var m := StatsArgOf(ParseProfileStats(text)).value;
    assert "connections" in m;
  }

  /** A positive count prints as its decimal digits; zero, like a missing
      count, prints as "unknown". */
  lemma CountTextOfNat(v: Option<nat>)
    ensures v.Some? && v.value > 0 ==> CountText(NatOption(v)) == NatToString(v.value)
    ensures v.None? || v == Some(0) ==> CountText(NatOption(v)) == "unknown"
  {
  }

  /** Where the parts up to the closing part sit in a prompt-shaped
      concatenation. */
  lemma HeadLayout(pre: string, text: string, close: string, rolePart: string, statsPart: string, schema: string)
    ensures var r := pre + text + close + rolePart + "\n" + statsPart + "\n" + schema;
      var at := |pre| + |text| + |close|;
      && |r| == at + |rolePart| + |statsPart| + 2 + |schema|
      && r[..|pre|] == pre
      && r[|pre|..|pre| + |text|] == text
      && r[|pre| + |text|..at] == close
  {
    Regroup(pre, text, close, rolePart, statsPart, schema);
    HeadSlices(pre, text, close, rolePart + "\n" + statsPart + "\n" + schema);
  }

  /** The prompt's concatenation, grouped as head (up to the closing dashed
      line), tail (role and stats parts) and schema. */
  lemma Regroup(pre: string, text: string, close: string, rolePart: string, statsPart: string, schema: string)
    ensures pre + text + close + rolePart + "\n" + statsPart + "\n" + schema
      == (pre + text + close) + (rolePart + "\n" + statsPart + "\n" + schema)
  {
  }

  /** Where the parts of the head sit, whatever follows it. */
  lemma HeadSlices(pre: string, text: string, close: string, rest: string)
    ensures var r := pre + text + close + rest;
      && r[..|pre|] == pre
      && r[|pre|..|pre| + |text|] == text
      && r[|pre| + |text|..|pre| + |text| + |close|] == close
  {
    var r := pre + text + close + rest;
    assert r == (pre + text + close) + rest;
    ThreeSlices(pre, text, close);
  }

  /** Where the three parts of a concatenation sit. */
  lemma ThreeSlices(a: string, b: string, c: string)
    ensures (a + b + c)[..|a|] == a
    ensures (a + b + c)[|a|..|a| + |b|] == b
    ensures (a + b + c)[|a| + |b|..] == c
    ensures (a + b + c)[..|a| + |b|] == a + b
  {
  }
}

=== FILE: rank.dfy ===
/** `compute_rank_percentile` of certificate.py: the six-band step function
    from a score to a rank name and an approximate top percentile. */
module Ranking {

  /** A rank name with its percentile. */
  datatype Rank = Rank(name: string, percentile: nat)

  const Elite: Rank := Rank("S (Elite)", 99)
  const Exceptional: Rank := Rank("A+ (Exceptional)", 95)
  const Excellent: Rank := Rank("A (Excellent)", 88)
  const Strong: Rank := Rank("B (Strong)", 74)
  const Average: Rank := Rank("C (Average)", 63)
  const NeedsImprovement: Rank := Rank("D (Needs Improvement)", 35)

  /** The six ranks, best first. */
  const Ranks: seq<Rank> := [Elite, Exceptional, Excellent, Strong, Average, NeedsImprovement]

  /** The lowest score of each band above the last, best first: a reference
      table read by `BandOf`. */
  const Thresholds: seq<int> := [95, 90, 80, 70, 60]

  /** The if/elif chain of the source, bands inclusive at their lower
      bound and checked in descending order. */
  function RankPercentile(score: int): (r: Rank)
    ensures r in Ranks
    ensures r.percentile == 99 <==> score >= 95
    ensures r.percentile == 95 <==> 90 <= score < 95
    ensures r.percentile == 88 <==> 80 <= score < 90
    ensures r.percentile == 74 <==> 70 <= score < 80
    ensures r.percentile == 63 <==> 60 <= score < 70
    ensures r.percentile == 35 <==> score < 60
  {
    if score >= 95 then Elite
    else if score >= 90 then Exceptional
    else if score >= 80 then Excellent
    else if score >= 70 then Strong
    else if score >= 60 then Average
    else NeedsImprovement
  }

  /** The reference reading: the band is the number of thresholds above the
      score, counting from the top. */
  function BandOf(score: int, thresholds: seq<int>): (b: nat)
    ensures b <= |thresholds|
  {
    if |thresholds| == 0 || score >= thresholds[0] then 0
    else 1 + BandOf(score, thresholds[1..])
  }

  /** The chain and the table agree on every score. */
  lemma RankMatchesTable(score: int)
    ensures RankPercentile(score) == Ranks[BandOf(score, Thresholds)]
  {
    var t := Thresholds;
    assert t[1..] == [90, 80, 70, 60];
    assert t[1..][1..] == [80, 70, 60];
    assert t[1..][1..][1..] == [70, 60];
    assert t[1..][1..][1..][1..] == [60];
    assert t[1..][1..][1..][1..][1..] == [];
    var b4 := BandOf(score, [60]);
    assert b4 == if score >= 60 then 0 else 1;
    var b3 := BandOf(score, [70, 60]);
    assert b3 == if score >= 70 then 0 else 1 + b4;
    var b2 := BandOf(score, [80, 70, 60]);
    assert b2 == if score >= 80 then 0 else 1 + b3;
    var b1 := BandOf(score, [90, 80, 70, 60]);
    assert b1 == if score >= 90 then 0 else 1 + b2;
    assert BandOf(score, t) == if score >= 95 then 0 else 1 + b1;
  }

  /** Distinct ranks have distinct percentiles and distinct labels, so either
      one identifies the rank. */
  lemma RanksDistinct(i: nat, j: nat)
    requires i < |Ranks| && j < |Ranks| && i != j
    ensures Ranks[i].percentile != Ranks[j].percentile
    ensures Ranks[i].name != Ranks[j].name
  {
    assert |Ranks[i].name| != |Ranks[j].name|;
  }

  /** A higher score never gets a lower percentile. */
  lemma PercentileMonotone(a: int, b: int)
    requires a <= b
    ensures RankPercentile(a).percentile <= RankPercentile(b).percentile
  {
  }

  /** The worked example: 87 is "A (Excellent)", top 88%. */
  lemma RankExample()
    ensures RankPercentile(87) == Rank("A (Excellent)", 88)
  {
  }
}

=== FILE: review.dfy ===
/** The step of the review endpoint in app.py that follows `json.loads` of
    the model's answer: when the answer is a JSON object, the parsed counts
    fill in the `connections` and `followers` fields the model left out or
    set to null. */
module Review {
  import opened Options
  import opened ProfileStats

  /** A decoded JSON value. Numbers are integers here. */
  datatype Json =
    | Null
    | Bool(b: bool)
    | Num(n: int)
    | Str(s: string)
    | Arr(items: seq<Json>)
    | Obj(fields: map<string, Json>)

  /** A parsed count as JSON: the number, or null when it was not found. */
  function CountJson(v: Option<nat>): (j: Json)
    ensures j == Null <==> v.None?
    ensures v.Some? ==> j.Num? && j.n == v.value
  {
    if v.Some? then Num(v.value) else Null
  }

  /** One `if key not in review or review.get(key) is None` step: the key
      is set to `value` when absent or null and left alone otherwise. */
  function FillKey(fields: map<string, Json>, key: string, value: Json): (r: map<string, Json>)
    ensures r.Keys == fields.Keys + {key}
    ensures key in fields && fields[key] != Null ==> r[key] == fields[key]
    ensures key !in fields || fields[key] == Null ==> r[key] == value
    ensures forall k :: k in fields && k != key ==> r[k] == fields[k]
  {
    if key !in fields || fields[key] == Null then fields[key := value] else fields
  }

  /** Lines 265-269: backfill both counts into an object answer; any other
      answer is returned as it came. */
  function Backfill(review: Json, stats: Stats): (r: Json)
    ensures !review.Obj? ==> r == review
    ensures review.Obj? ==> (
      && r.Obj?
      && r.fields.Keys == review.fields.Keys + {"connections", "followers"}
      && (forall k :: k in review.fields && k != "connections" && k != "followers" ==>
            r.fields[k] == review.fields[k])
      && r.fields["connections"] == Kept(review.fields, "connections", stats.connections)
      && r.fields["followers"] == Kept(review.fields, "followers", stats.followers))
  {
    if review.Obj? then
      var withConnections := FillKey(review.fields, "connections", CountJson(stats.connections));
      Obj(FillKey(withConnections, "followers", CountJson(stats.followers)))
    else review
  }

  /** The value a count field ends up with: the model's when present and not
      null, the parsed count's otherwise. */
  function Kept(fields: map<string, Json>, key: string, parsed: Option<nat>): Json {
    if key in fields && fields[key] != Null then fields[key] else CountJson(parsed)
  }

  /** After the backfill both count fields are present, and each is null only
      when the model gave no value and the parser found none. */
  lemma BackfillFields(review: map<string, Json>, stats: Stats)
    ensures var r := Backfill(Obj(review), stats);
      && "connections" in r.fields && "followers" in r.fields
      && (r.fields["connections"] == Null <==>
            (("connections" !in review || review["connections"] == Null) && stats.connections.None?))
      && (r.fields["followers"] == Null <==>
            (("followers" !in review || review["followers"] == Null) && stats.followers.None?))
  {
  }

  /** Backfilling twice with the same counts changes nothing more. */
  lemma BackfillIdempotent(review: Json, stats: Stats)
    ensures Backfill(Backfill(review, stats), stats) == Backfill(review, stats)
  {
    if review.Obj? {
      var once := Backfill(review, stats);
      var twice := Backfill(once, stats);
      assert twice.fields.Keys == once.fields.Keys;
      assert forall k :: k in once.fields ==> twice.fields[k] == once.fields[k];
    }
  }

  /** A model answer that already carries non-null counts keeps them: the
      parsed counts never override the model. */
  lemma BackfillKeepsModelCounts(review: map<string, Json>, stats: Stats)
    requires "connections" in review && review["connections"] != Null
    requires "followers" in review && review["followers"] != Null
    ensures Backfill(Obj(review), stats) == Obj(review)
  {
    var r := Backfill(Obj(review), stats);
    assert r.fields.Keys == review.Keys;
    assert forall k :: k in review ==> r.fields[k] == review[k];
  }

  /** An answer with `connections: null` and no `followers`, and parsed
      counts 42 and none: connections becomes 42 and followers null. */
  lemma BackfillExample()
    ensures Backfill(Obj(map["score" := Num(70), "connections" := Null]), Stats(Some(42), None))
      == Obj(map["score" := Num(70), "connections" := Num(42), "followers" := Null])
  {
    var r := Backfill(Obj(map["score" := Num(70), "connections" := Null]), Stats(Some(42), None));
    var e := map["score" := Num(70), "connections" := Num(42), "followers" := Null];
    assert r.fields.Keys == e.Keys;
    assert forall k :: k in e ==> r.fields[k] == e[k];
  }
}

=== FILE: words.dfy ===
/** Sequences of words and separators: Python's `str.split()` (runs of
    whitespace), `str.split(c)` for one separator character, and the joins
    they undo. */
module Words {

  /** The characters Python's `str.isspace()` accepts, which are exactly the
      ones `str.split()` with no argument splits on. */
  predicate IsSpace(c: char) {
    || c == ' ' || c == '\t' || c == '\n' || c == '\r'
    || c == '\U{000B}' || c == '\U{000C}'
    || ('\U{001C}' <= c <= '\U{001F}')
    || c == '\U{0085}' || c == '\U{00A0}' || c == '\U{1680}'
    || ('\U{2000}' <= c <= '\U{200A}')
    || c == '\U{2028}' || c == '\U{2029}' || c == '\U{202F}' || c == '\U{205F}'
    || c == '\U{3000}'
  }

  /** What `str.split()` can yield: a non-empty string with no whitespace. */
  predicate IsWord(w: string) {
    |w| > 0 && forall k :: 0 <= k < |w| ==> !IsSpace(w[k])
  }

  predicate AllWords(ws: seq<string>) {
    forall k :: 0 <= k < |ws| ==> IsWord(ws[k])
  }

  /** `sep.join(parts)` for a one-character separator. */
  function Join(parts: seq<string>, sep: char): (s: string)
    ensures |parts| == 1 ==> s == parts[0]
  {
    if parts == [] then ""
    else if |parts| == 1 then parts[0]
    else Join(parts[..|parts| - 1], sep) + [sep] + parts[|parts| - 1]
  }

  /** `" ".join(words)`. */
  function JoinSp(ws: seq<string>): string {
    Join(ws, ' ')
  }

  /** Appending one more part adds the separator and that part at the end. */
  lemma JoinSnoc(parts: seq<string>, x: string, sep: char)
    requires parts != []
    ensures Join(parts + [x], sep) == Join(parts, sep) + [sep] + x
  {
    assert (parts + [x])[..|parts|] == parts;
  }

  /** The same join, taken apart at its first separator. */
  lemma {:induction false} JoinCons(p: string, rest: seq<string>, sep: char)
    requires rest != []
    ensures Join([p] + rest, sep) == p + [sep] + Join(rest, sep)
    decreases |rest|
  {
    if |rest| == 1 {
      assert [p] + rest == [p, rest[0]];
      assert ([p] + rest)[..1] == [p];
    } else {
      var init := rest[..|rest| - 1];
      var last := rest[|rest| - 1];
      var q := [p] + rest;
      assert q[..|q| - 1] == [p] + init;
      assert Join(q, sep) == Join([p] + init, sep) + [sep] + last;
      JoinCons(p, init, sep);
      assert Join(rest, sep) == Join(init, sep) + [sep] + last;
    }
  }

  /** Python's `s.split(c)`: the pieces between occurrences of `c`, always at
      least one, empty pieces kept. */
  function SplitOn(s: string, c: char): (r: seq<string>)
    ensures |r| >= 1
    ensures forall k :: 0 <= k < |r| ==> c !in r[k]
    decreases |s|
  {
    if s == [] then [""]
    else if s[0] == c then [""] + SplitOn(s[1..], c)
    else
      var rest := SplitOn(s[1..], c);
      [[s[0]] + rest[0]] + rest[1..]
  }

  /** A piece free of the separator splits off whole. */
  lemma {:induction false} SplitOnPiece(p: string, t: string, c: char)
    requires c !in p
    ensures SplitOn(p + [c] + t, c) == [p] + SplitOn(t, c)
    ensures SplitOn(p, c) == [p]
    decreases |p|
  {
    if p == [] {
      assert p + [c] + t == [c] + t;
      assert ([c] + t)[1..] == t;
    } else {
      SplitOnPiece(p[1..], t, c);
      assert (p + [c] + t)[1..] == p[1..] + [c] + t;
      assert [p[0]] + p[1..] == p;
    }
  }

  /** Splitting a join on a separator that no part contains gives the parts
      back. */
  lemma {:induction false} SplitJoinRoundTrip(parts: seq<string>, c: char)
    requires |parts| >= 1
    requires forall k :: 0 <= k < |parts| ==> c !in parts[k]
    ensures SplitOn(Join(parts, c), c) == parts
    decreases |parts|
  {
    if |parts| == 1 {
      SplitOnPiece(parts[0], "", c);
    } else {
      assert parts == [parts[0]] + parts[1..];
      JoinCons(parts[0], parts[1..], c);
      SplitJoinRoundTrip(parts[1..], c);
      SplitOnPiece(parts[0], Join(parts[1..], c), c);
    }
  }

  /** Joining the pieces of a split with the separator gives the string
      back. */
  lemma {:induction false} JoinSplitRoundTrip(s: string, c: char)
    ensures Join(SplitOn(s, c), c) == s
    decreases |s|
  {
    if s != [] {
      var t := s[1..];
      var rest := SplitOn(t, c);
      assert s == [s[0]] + t;
      SplitOnCons(s[0], t, c);
      JoinSplitRoundTrip(t, c);
      if s[0] == c {
        JoinCons("", rest, c);
      } else {
        JoinGrowFirst(s[0], rest, c);
      }
    }
  }

  /** One step of `SplitOn`: a separator opens a new piece, any other
      character joins the first piece. */
  lemma SplitOnCons(x: char, t: string, c: char)
    ensures SplitOn([x] + t, c) ==
      if x == c then [""] + SplitOn(t, c)
      else [[x] + SplitOn(t, c)[0]] + SplitOn(t, c)[1..]
  {
    assert ([x] + t)[1..] == t;
  }

  /** Growing the first part at its front grows the join at its front. */
  lemma JoinGrowFirst(x: char, parts: seq<string>, sep: char)
    requires parts != []
    ensures Join([[x] + parts[0]] + parts[1..], sep) == [x] + Join(parts, sep)
  {
    if |parts| > 1 {
      assert parts == [parts[0]] + parts[1..];
      JoinCons(parts[0], parts[1..], sep);
      JoinCons([x] + parts[0], parts[1..], sep);
    }
  }

  /** The longest prefix of `s` without whitespace. */
  function TakeWord(s: string): (w: string)
    ensures |w| <= |s| && w == s[..|w|]
    ensures forall k :: 0 <= k < |w| ==> !IsSpace(s[k])
    ensures |w| == |s| || IsSpace(s[|w|])
  {
    if s == [] || IsSpace(s[0]) then ""
    else [s[0]] + TakeWord(s[1..])
  }

  /** Python's `str.split()` with no argument: the maximal runs of
      non-whitespace, in order. */
  function SplitWords(s: string): (ws: seq<string>)
    ensures AllWords(ws)
    ensures ws == [] <==> forall k :: 0 <= k < |s| ==> IsSpace(s[k])
    decreases |s|
  {
    if s == [] then []
    else if IsSpace(s[0]) then SplitWords(s[1..])
    else
      var w := TakeWord(s);
      [w] + SplitWords(s[|w|..])
  }

  lemma {:induction false} TakeWordOfWord(w: string, t: string)
    requires forall k :: 0 <= k < |w| ==> !IsSpace(w[k])
    requires t == [] || IsSpace(t[0])
    ensures TakeWord(w + t) == w
    decreases |w|
  {
    if w != [] {
      assert (w + t)[1..] == w[1..] + t;
      TakeWordOfWord(w[1..], t);
      assert [w[0]] + w[1..] == w;
    }
  }

  /** A whitespace character splits: the words of `a + [c] + b` are those
      of `a` followed by those of `b`. With SplitWords' own contract (no
      words exactly for all-whitespace text) and SplitOneWord, this fixes
      `str.split()` on every text. */
  lemma {:induction false} SplitAtSpace(a: string, c: char, b: string)
    requires IsSpace(c)
    ensures SplitWords(a + [c] + b) == SplitWords(a) + SplitWords(b)
    decreases |a|
  {
    var s := a + [c] + b;
    if a == [] {
      assert s == [c] + b;
      assert s[1..] == b;
      assert SplitWords(s) == SplitWords(b);
    } else if IsSpace(a[0]) {
      assert s[0] == a[0];
      assert s[1..] == a[1..] + [c] + b;
      SplitAtSpace(a[1..], c, b);
      assert SplitWords(s) == SplitWords(a[1..] + [c] + b);
    } else {
      var w := TakeWord(a);
      assert TakeWord(s) == w by {
        assert s == a + ([c] + b);
        TakeWordBeforeSpace(a, [c] + b);
      }
      assert s[0] == a[0];
      assert s[|w|..] == a[|w|..] + [c] + b;
      SplitAtSpace(a[|w|..], c, b);
      assert SplitWords(s) == [w] + SplitWords(a[|w|..] + [c] + b);
    }
  }

  /** Text after a whitespace character does not change the first word. */
  lemma {:induction false} TakeWordBeforeSpace(a: string, t: string)
    requires |t| > 0 && IsSpace(t[0])
    ensures TakeWord(a + t) == TakeWord(a)
    decreases |a|
  {
    if a != [] && !IsSpace(a[0]) {
      assert (a + t)[1..] == a[1..] + t;
      TakeWordBeforeSpace(a[1..], t);
    } else if a == [] {
      assert a + t == t;
    }
  }

  /** A single word splits into itself. */
  lemma SplitOneWord(w: string)
    requires IsWord(w)
    ensures SplitWords(w) == [w]
  {
    SplitJoinWords([w]);
  }

  /** Splitting words joined by single spaces gives the words back: joining
      with spaces loses, splits and merges nothing. */
  lemma {:induction false} SplitJoinWords(ws: seq<string>)
    requires AllWords(ws)
    ensures SplitWords(JoinSp(ws)) == ws
    decreases |ws|
  {
    if |ws| == 1 {
      TakeWordOfWord(ws[0], "");
      assert ws[0] + "" == ws[0];
      assert !IsSpace(ws[0][0]);
      assert (ws[0])[|ws[0]|..] == [];
      assert SplitWords(ws[0]) == [ws[0]] + SplitWords([]);
    } else if |ws| > 1 {
      var rest := JoinSp(ws[1..]);
      assert ws == [ws[0]] + ws[1..];
      JoinCons(ws[0], ws[1..], ' ');
      var s := ws[0] + " " + rest;
      assert s == ws[0] + (" " + rest);
      TakeWordOfWord(ws[0], " " + rest);
      assert TakeWord(s) == ws[0];
      assert s[|ws[0]|..] == " " + rest;
      assert (" " + rest)[1..] == rest;
      assert s[0] == ws[0][0] && !IsSpace(s[0]);
      assert SplitWords(s) == [ws[0]] + SplitWords(" " + rest);
      assert SplitWords(" " + rest) == SplitWords(rest);
      SplitJoinWords(ws[1..]);
    }
  }

  /** The text before the first space (all of it when there is none). */
  function FirstWord(s: string): (w: string)
    ensures |w| <= |s| && w == s[..|w|]
    ensures ' ' !in w
  {
    if s == [] || s[0] == ' ' then "" else [s[0]] + FirstWord(s[1..])
  }

  lemma {:induction false} FirstWordOfAppend(a: string, b: string)
    ensures FirstWord(a + " " + b) == FirstWord(a)
    decreases |a|
  {
    if a != [] && a[0] != ' ' {
      FirstWordOfAppend(a[1..], b);
      assert (a + " " + b)[1..] == a[1..] + " " + b;
    }
  }

  lemma {:induction false} FirstWordOfWord(w: string)
    requires ' ' !in w
    ensures FirstWord(w) == w
    decreases |w|
  {
    if w != [] {
      FirstWordOfWord(w[1..]);
      assert [w[0]] + w[1..] == w;
    }
  }

  /** The strings of a sequence that are not empty, in order. */
  function NonEmpty(ls: seq<string>): (r: seq<string>)
    ensures |r| <= |ls|
    ensures forall k :: 0 <= k < |r| ==> r[k] != ""
  {
    if ls == [] then []
    else if ls[|ls| - 1] == "" then NonEmpty(ls[..|ls| - 1])
    else NonEmpty(ls[..|ls| - 1]) + [ls[|ls| - 1]]
  }

  /** `t` occurs in `s` (Python's `t in s`). */
  predicate Contains(s: string, t: string) {
    exists k | 0 <= k <= |s| - |t| :: OccursAt(s, t, k)
  }

  /** `t` occurs in `s` starting at index `k`. */
  predicate OccursAt(s: string, t: string, k: int) {
    0 <= k <= |s| - |t| && s[k..k + |t|] == t
  }

  lemma ContainsMiddle(a: string, t: string, b: string)
    ensures Contains(a + t + b, t)
  {
    assert OccursAt(a + t + b, t, |a|);
  }
}

=== FILE: wrap.dfy ===
/** The greedy word wrap that lays the certificate sentence out in lines of
    at most 85 characters (certificate.py, lines 151-164). */
module Wrap {
  import opened Words

  /** `max_chars_per_line`. */
  const MaxChars: nat := 85

  /** The loop's variables: the lines emitted so far and the line being
      filled. */
  datatype State = State(lines: seq<string>, line: string)

  /** One pass of the loop body. A word joins the current line when the
      line, a space and the word fit in 85 characters; the space is counted
      even while the line is empty, so a first word longer than 84
      characters flushes an empty line before it. Otherwise the current line
      is emitted and the word starts the next one. */
  function Step(st: State, word: string): (r: State)
    ensures r.line == word || (st.line != "" && r.line == st.line + " " + word)
    ensures |st.line| + 1 + |word| <= MaxChars && st.line != "" ==> r.line == st.line + " " + word
    ensures |r.line| <= MaxChars || r.line == word
    ensures r.lines == st.lines || r.lines == st.lines + [st.line]
    ensures r.lines != st.lines <==> |st.line| + 1 + |word| > MaxChars
    ensures r.lines != st.lines ==> r.line == word
  {
    if |st.line| + 1 + |word| <= MaxChars then
      if st.line != "" then State(st.lines, st.line + " " + word)
      else State(st.lines, word)
    else State(st.lines + [st.line], word)
  }

  /** How the loop's variables stand after the first `i` words: the line
      is empty only before the first word, and nothing is emitted then. */
  predicate Started(words: seq<string>, i: nat, st: State) {
    && i <= |words|
    && (i == 0 <==> st.line == "")
    && (i == 0 ==> st.lines == [])
  }

  /** The emitted lines and the current one, empty strings dropped and
      joined by spaces, are the words read so far. */
  predicate Covers(words: seq<string>, i: nat, st: State)
    requires i <= |words|
  {
    JoinSp(NonEmpty(st.lines + [st.line])) == JoinSp(words[..i])
  }

  /** Only the first emitted line can be empty, and it is exactly when the
      first word is longer than 84 characters. */
  predicate Leads(words: seq<string>, i: nat, st: State) {
    && (forall k :: 0 < k < |st.lines| ==> st.lines[k] != "")
    && (st.lines != [] ==> |words| > 0 && (st.lines[0] == "" <==> |words[0]| > MaxChars - 1))
    && (i > 0 && st.lines == [] ==> |words| > 0 && |words[0]| <= MaxChars - 1)
  }

  /** A line longer than 85 characters is a single word. */
  predicate Bounded(words: seq<string>, st: State) {
    && (forall k :: 0 <= k < |st.lines| ==> |st.lines[k]| <= MaxChars || st.lines[k] in words)
    && (|st.line| <= MaxChars || st.line in words)
  }

  /** Each emitted line was full: its successor's first word, after a
      space, would not have fit on it. */
  predicate Greedy(st: State) {
    && (forall k :: 0 <= k < |st.lines| - 1 ==> |st.lines[k]| + 1 + |FirstWord(st.lines[k + 1])| > MaxChars)
    && (st.lines != [] ==> |st.lines[|st.lines| - 1]| + 1 + |FirstWord(st.line)| > MaxChars)
  }

  /** The invariant of the wrap loop after `i` words. */
  predicate WrapInv(words: seq<string>, i: nat, st: State) {
    && Started(words, i, st)
    && Covers(words, i, st)
    && Leads(words, i, st)
    && Bounded(words, st)
    && Greedy(st)
  }

  /** The wrap loop over the words of `sentence.split()`, then the final
      `if line: text.textLine(line)`. */
  method WrapWords(words: seq<string>) returns (lines: seq<string>)
    requires AllWords(words)
    ensures words == [] <==> lines == []
    ensures JoinSp(NonEmpty(lines)) == JoinSp(words)
    ensures forall k :: 0 < k < |lines| ==> lines[k] != ""
    ensures lines != [] ==> (lines[0] == "" <==> |words[0]| > MaxChars - 1)
    ensures forall k :: 0 <= k < |lines| ==> |lines[k]| <= MaxChars || lines[k] in words
    ensures forall k :: 0 <= k < |lines| && ' ' in lines[k] ==> |lines[k]| <= MaxChars
    ensures forall k :: 0 <= k < |lines| - 1 ==> |lines[k]| + 1 + |FirstWord(lines[k + 1])| > MaxChars
  {
    var st := State([], "");
    var i := 0;
    while i < |words|
      invariant i <= |words|
      invariant WrapInv(words, i, st)
    {
      StepKeepsInv(words, i, st);
      st := Step(st, words[i]);
      i := i + 1;
    }
    assert words[..i] == words;
    lines := st.lines;
    if st.line != "" {
      lines := lines + [st.line];
    } else {
      assert NonEmpty(st.lines + [st.line]) == NonEmpty(st.lines);
    }
    forall k | 0 <= k < |lines| && lines[k] in words
      ensures ' ' !in lines[k]
    {
      var j :| 0 <= j < |words| && words[j] == lines[k];
      WordHasNoBlank(words[j]);
    }
  }

  /** One step keeps the loop invariant. */
  lemma StepKeepsInv(words: seq<string>, i: nat, st: State)
    requires AllWords(words)
    requires i < |words|
    requires WrapInv(words, i, st)
    ensures WrapInv(words, i + 1, Step(st, words[i]))
  {
    WordHasNoBlank(words[i]);
    StepStarted(words, i, st);
    StepCovers(words, i, st);
    StepLeads(words, i, st);
    StepBounded(words, i, st);
    StepGreedy(st, words[i]);
  }

  /** After a step the line holds a word, and lines are emitted only once
      a word has been read. */
  lemma StepStarted(words: seq<string>, i: nat, st: State)
    requires AllWords(words)
    requires i < |words|
    requires Started(words, i, st)
    ensures Started(words, i + 1, Step(st, words[i]))
  {
    assert IsWord(words[i]);
  }

  /** One step emits an empty line only for an overlong first word. */
  lemma StepLeads(words: seq<string>, i: nat, st: State)
    requires i < |words|
    requires Started(words, i, st) && Leads(words, i, st)
    ensures Leads(words, i + 1, Step(st, words[i]))
  {
    var r := Step(st, words[i]);
    if |st.line| + 1 + |words[i]| > MaxChars {
      assert r.lines == st.lines + [st.line];
      if i == 0 {
        assert r.lines == [""];
      } else {
        assert st.line != "";
        assert forall k :: 0 < k < |r.lines| ==> r.lines[k] != "" by {
          forall k | 0 < k < |r.lines|
            ensures r.lines[k] != ""
          {
            if k < |st.lines| {
              assert r.lines[k] == st.lines[k];
            }
          }
        }
      }
    }
  }

  /** One step emits only lines that fit or hold a single word. */
  lemma StepBounded(words: seq<string>, i: nat, st: State)
    requires i < |words|
    requires Bounded(words, st)
    ensures Bounded(words, Step(st, words[i]))
  {
    var r := Step(st, words[i]);
    assert words[i] in words;
    if |st.line| + 1 + |words[i]| > MaxChars {
      assert forall k :: 0 <= k < |r.lines| ==> |r.lines[k]| <= MaxChars || r.lines[k] in words by {
        forall k | 0 <= k < |r.lines|
          ensures |r.lines[k]| <= MaxChars || r.lines[k] in words
        {
          if k < |st.lines| {
            assert r.lines[k] == st.lines[k];
          }
        }
      }
    }
  }

  /** One step keeps the joined text equal to the words read. */
  lemma StepCovers(words: seq<string>, i: nat, st: State)
    requires AllWords(words)
    requires i < |words|
    requires Started(words, i, st) && Covers(words, i, st)
    ensures Covers(words, i + 1, Step(st, words[i]))
  {
    var word := words[i];
    var lines, line := st.lines, st.line;
    assert words[..i + 1] == words[..i] + [word];
    if |line| + 1 + |word| <= MaxChars {
      if line != "" {
        assert Step(st, word) == State(lines, line + " " + word);
        ExtendLast(NonEmpty(lines), line, word);
        NonEmptySnoc(lines, line);
        NonEmptySnoc(lines, line + " " + word);
        JoinSnoc(words[..i], word, ' ');
      } else {
        assert Step(st, word) == State(lines, word);
        NonEmptySnoc(lines, word);
      }
    } else {
      assert Step(st, word) == State(lines + [line], word);
      NonEmptySnoc(lines + [line], word);
      if i > 0 {
        NonEmptySnoc(lines, line);
        JoinSnoc(NonEmpty(lines + [line]), word, ' ');
        JoinSnoc(words[..i], word, ' ');
      } else {
        NonEmptySnoc(lines, line);
      }
    }
  }

  /** One step keeps every emitted line full. */
  lemma StepGreedy(st: State, word: string)
    requires ' ' !in word
    requires Greedy(st)
    ensures Greedy(Step(st, word))
  {
    if |st.line| + 1 + |word| <= MaxChars {
      if st.line != "" {
        FirstWordOfAppend(st.line, word);
      }
    } else {
      FirstWordOfWord(word);
    }
  }

  /** Words from `split()` contain no space. */
  lemma WordHasNoBlank(w: string)
    requires IsWord(w)
    ensures ' ' !in w
  {
  }

  /** Dropping empty strings from a sequence extended by one string. */
  lemma NonEmptySnoc(ls: seq<string>, x: string)
    ensures NonEmpty(ls + [x]) == NonEmpty(ls) + (if x == "" then [] else [x])
  {
    assert (ls + [x])[..|ls|] == ls;
  }

  /** Growing the last line by a space and a word grows the joined text the
      same way. */
  lemma ExtendLast(ps: seq<string>, x: string, y: string)
    ensures JoinSp(ps + [x + " " + y]) == JoinSp(ps + [x]) + " " + y
  {
    if ps != [] {
      JoinSnoc(ps, x + " " + y, ' ');
      JoinSnoc(ps, x, ' ');
    }
  }
}
